=== FILE: README.md ===
# tomanro.de scraper: a Dafny model of its logic

This project models the parts of the tomanro.de product scraper that are not browser or HTTP plumbing. The page content and the network are abstract inputs. The model covers:

- **Category discovery** (`get_sub_sub_category_links` in main.py): the six mega menus are read. The hrefs ending in `-Gruppe` but not `-Hauptgruppe` are kept, resolved, deduplicated and sorted. A failing menu request aborts the call.
- **Listing pages** (`fetch_page_links`, in both versions): product links are read from a listing page and the pagination links follow. product_links.py reads only inside `div#products`, skipping the recommendations block. main.py reads every anchor of the raw page and gives up on a status other than 200. The stop rule of the lazy-loading scroll loop is modelled too.
- **The pagination crawl** (`get_all_product_links`, in both versions): product_links.py uses a first-in first-out queue. main.py uses rounds of parallel fetches.
  - Both versions are proved against one reference definition, `Crawl.Run`. It is the queue a crawl has built once a given number of pages has been fetched.
  - Every URL is fetched at most once, in breadth-first order.
  - The crawl terminates on a finite set of reachable pages.
  - The result is the union of the product links of the fetched pages.
  - The modelled crawls also return the order in which they fetched the pages. The source does not return it, but the contracts are stated in terms of it.
- **Variant scraping** (single_product.py):
  - the base name;
  - the order in which the page layouts are tried (TabZel2, then accordion panels, then every `CarArtikel` of the page);
  - the field extraction of each variant block: the name composition, the tax-note removal `exkl.\s*\d+%\s*MwSt.` under `re.IGNORECASE`, and the `Artikel-Nr.:` serial fallback;
  - deduplication by serial number;
  - `clean_product_data` (name and price cleanup).
  - main.py's diverging copy of `clean_product_data` is modelled as well.

Files:

- wrappers.dfy: `Option` and `Result`.
- text.dfy: the Python string operations the code uses, over `seq<char>`. These are `str.isspace` and the `\s` class, `strip`, `split()`, `" ".join`, `endswith`, `in`, `find`, `replace(p, "")` and `re.sub(r'\s+', ' ', s)`.
- order.dfy: Python's string ordering and `sorted` on a set.
- variants.dfy: the variant record and the deduplication.
- cleanup.dfy: both copies of `clean_product_data`.
- extract.dfy: per-variant field extraction.
- layout.dfy: the page layouts and `scrape_product_variants`.
- listing.dfy: listing-page reading and the scroll loop.
- categories.dfy: category discovery.
- crawl.dfy: the two crawls.

Where the code and the documentation disagree, the model follows the code. The price filter `[^\d,\s€]` (single_product.py:283) deletes the thousands separator `.`. So `"1.958,37€"` becomes `"1958,37 €"`, not the `"1.958,37 €"` that the comment at single_product.py:284 gives.

## Model

| member | source | states |
|---|---|---|
| Variants.DedupBySerial | single_product.py:82-92 | The loop's result is `Dedup`. No two kept records share a non-empty serial. The set of serials kept equals the set of serials seen. Every record without a serial is kept. |
| Variants.DedupKeepsFirstOccurrences | single_product.py:82-92 | The output is the input restricted to an increasing sequence of positions. A position is kept exactly when its serial is empty or seen there for the first time. |
| Variants.KeptPositionsAreFirsts | single_product.py:86-92 | The kept positions are exactly the records whose serial is empty or has no earlier occurrence. |
| Variants.DedupSerials | single_product.py:84-90 | Deduplication loses no serial: the serials of the output equal those of the input. |
| Variants.DedupSerialsDistinct | single_product.py:88-90 | After deduplication every non-empty serial occurs once. |
| Variants.DedupOfDistinct | single_product.py:86-92 | Records whose serials are already distinct pass through unchanged. |
| Variants.DedupIdempotent | single_product.py:82-92 | Deduplicating twice equals deduplicating once. |
| Cleanup.CleanName | single_product.py:273-278 | The result is stripped. If the name has more than two words and the first two are equal, its words are the name's words without the first, joined by single spaces. Otherwise it is the name with only its ends stripped. |
| Cleanup.CleanPrice | single_product.py:281-287 | Only digits, commas, whitespace and `€` remain. A `€` in the result means it ends in `" €"`. The result has a `€` exactly when the input had one. The digits and commas are those of the input, in order. The result is stripped unless it is the bare `" €"`. When the filtered price has a `€` but does not yet end in `" €"`, the rewrite leaves exactly one `€`. Otherwise the number of `€` signs is that of the input. The digits, commas and whitespace of the result have the same words as those of the input, so whitespace inside the amount stays a separator. |
| Cleanup.CleanPriceIdempotent | single_product.py:281-287 | Cleaning a cleaned price changes nothing. |
| Cleanup.CleanRecord | single_product.py:269-289 | Cleanup leaves the serial of a record as it is. |
| Cleanup.CleanProductData | single_product.py:265-291 | There is one cleaned record per input record, in the same order. |
| Cleanup.CleanupKeepsSerials | single_product.py:265-291 | Cleanup keeps the set of serials and keeps the serials distinct. |
| Cleanup.CleanPriceMainCopy | main.py:385-392 | main.py's copy, with its three-character literal, keeps only digits, commas, whitespace and the literal's characters. No real `€` survives. The digits and commas are those of the input. |
| Cleanup.MainCopyDropsEuro | main.py:388-391 | For any price with a `€`, single_product.py's cleanup ends it in `" €"` while main.py's copy removes the sign. The two agree on the digits and commas. |
| Extract.Stripped | single_product.py:203 | `element.text.strip()` is the element's text with a whitespace-only prefix and suffix cut off, and has no whitespace at either end. |
| Extract.StrippedJoin | single_product.py:226 | `get_text(strip=True)` has no whitespace at either end and is no longer than the element's text. A single text node gives that node stripped. |
| Extract.StrippedJoinAppend | single_product.py:226 | The text nodes are stripped one by one: consecutive runs of nodes give the concatenation of the runs' results. |
| Extract.StrippedJoinKeepsText | single_product.py:226 | `get_text(strip=True)` keeps every non-whitespace character of every text node, in order. |
| Extract.VariantName | single_product.py:201-207 | The description is unchanged when the base name does not occur in it. It becomes strictly shorter when a non-empty base name does. It stays stripped. |
| Extract.VariantNameOfPrefixed | single_product.py:204-206 | A description that is the base name, a blank and a rest without the base name becomes the stripped rest. |
| Extract.CombineName | single_product.py:208-212 | With an empty base name the result is the description. With an empty description it is the base name. Otherwise it starts with the base name. It is stripped when both parts are. |
| Extract.CombineNameWords | single_product.py:209-212 | The words of the composed name are the base name's words followed by the description's words. |
| Extract.ContentNameRepaired | single_product.py:161-167 | On the content-div path, a description that repeats a one-word base name is repaired by the name cleanup. |
| Extract.MultiWordNameNotRepaired | single_product.py:275-278 | A repeated base name of two or more distinct words is not removed by the name cleanup. |
| Extract.TaxMatch | single_product.py:232 | A tax note matched at the front of a text spans at least 12 characters. |
| Extract.TaxMatchComplete | single_product.py:232 | Any text shaped like `exkl.` + whitespace + digits + `%` + whitespace + `MwSt.`, in any case, is matched whole. Case includes KELVIN SIGN for `k` and LONG S for `s`. |
| Extract.TaxMatchSound | single_product.py:232 | Everything the matcher matches has that shape. This is the converse of `TaxMatchComplete`. |
| Extract.RemoveTax | single_product.py:232 | Deleting tax notes never lengthens the text. |
| Extract.RemoveTaxKeepsPrefix | single_product.py:232 | A prefix in which no tax note starts is kept as it is, and the deletion goes on after it. |
| Extract.RemoveTaxUnchanged | single_product.py:232 | Tax-note removal changes a text exactly when a tax note occurs in it. |
| Extract.RemoveTaxDropsNote | single_product.py:232 | A tax note at the front of a text disappears without a trace. |
| Extract.NormalisePrice | single_product.py:228-235 | The price is stripped, and an empty price stays empty. Without a tax note after collapsing, it keeps every non-whitespace character in order and the same words. |
| Extract.NormaliseDropsTrailingNote | single_product.py:229-233 | A price followed by a trailing tax note normalises to the stripped, collapsed price alone. |
| Extract.NormaliseTypicalPrice | single_product.py:229-233 | `"1.958,37 € exkl. 19% MwSt."` normalises to `"1.958,37 €"`. |
| Extract.NormaliseWithoutTax | single_product.py:229-233 | A non-empty stripped price without a tax note only has its whitespace runs collapsed. |
| Extract.RawPrice | single_product.py:214-226 | Without `SortPreis2` the price text is empty. On the accordion path the `span.preis` inside it is preferred, and `get_text(strip=True)` of `SortPreis2` is used when there is none. Off the accordion path `get_text(strip=True)` of `SortPreis2` is used. |
| Extract.LabelledAt | single_product.py:257 | A capture of `Artikel-Nr\.:\s*([^\s]+)` at the front is non-empty and has no whitespace. |
| Extract.SearchSerial | single_product.py:257 | A serial found by `re.search` is non-empty, whitespace-free and stripped. |
| Extract.SearchSerialFirstLabel | single_product.py:256-259 | The search gives the word after the first occurrence of the label, or nothing when only whitespace follows that occurrence. |
| Extract.SerialFromAttribute | single_product.py:255-259 | An attribute gives a serial only when it contains the label. The serial is then a non-empty whitespace-free word. It is exactly what `re.search` finds in the attribute, so the label test in front of the search never changes the outcome. |
| Extract.SearchSerialHasLabel | single_product.py:256-257 | A serial found by the search implies that the label occurs in the text. |
| Extract.SerialFromImage | single_product.py:250-260 | `alt` is tried before `title`, and `title` only when `alt` gives nothing. |
| Extract.ExtractVariantData | single_product.py:189-262 | The price is the normalised raw price. The serial is the stripped details text. The image is consulted only when that text is empty. Without a description the name is the base name. With one, it is the base name combined with the stripped description after the base name's occurrences are deleted. A non-empty base name starts it. |
| Extract.NamePathsAgree | single_product.py:201-212 | When the description does not contain the base name, deleting the base name changes nothing, so the name is the plain composition. |
| Extract.ExtractVariantDataFromContent | single_product.py:153-186 | The serial is the stripped details text. The price has every whitespace run collapsed to one space and is stripped, and is empty without `span.preis`. It keeps the non-whitespace characters and the words of the `span.preis` text. The name's words are the base name's words followed by the description's words. A non-empty base name starts it. |
| Text.TrimIsStrip | single_product.py:278 | `strip()` cuts a whitespace-only prefix and suffix off the text and leaves no whitespace at either end. |
| Text.StripUnique | single_product.py:278 | Only one text is the text with whitespace-only ends cut off and no whitespace at either end. |
| Text.StripEmpty | single_product.py:56-58 | Stripping gives the empty text exactly when the text is all whitespace. |
| Text.Split | single_product.py:275 | `split()` yields non-empty whitespace-free words. |
| Text.SplitJoin | single_product.py:275-277 | Splitting words joined by single spaces gives the words back. |
| Text.SplitOfTrim | single_product.py:275-278 | `strip()` does not change the words. |
| Text.CollapseSpaces | single_product.py:230 | `re.sub(r'\s+', ' ', s)` leaves no whitespace but single blanks, never two in a row. It keeps the ends' whitespace status and empties only the empty text. |
| Text.CollapseKeepsText | single_product.py:174 | Collapsing keeps every non-whitespace character, in order. |
| Text.CollapseKeepsWords | single_product.py:174 | Collapsing does not change the words. |
| Text.CollapseOfCollapsed | single_product.py:230 | Text whose whitespace is single blanks, never two in a row, is left as it is. |
| Text.CollapseIdempotent | single_product.py:230 | Collapsing twice equals collapsing once. |
| Text.RemoveAllAbsent | single_product.py:205-206 | `replace(p, "")` leaves a text without `p` unchanged. |
| Text.RemoveAllAtFirst | single_product.py:206 | `replace(p, "")` keeps the text before the first occurrence of `p`, drops that occurrence and goes on after it. |
| Layout.BaseName | single_product.py:53-58 | The base name is the stripped `content` attribute when that is non-empty, the stripped heading text otherwise, and "" without a heading. It is always stripped. |
| Layout.ShownContents | single_product.py:136 | Exactly the content divs whose style contains `display: block` are read. All are read when all are shown, none when none is. |
| Layout.ShownContentsAppend | single_product.py:136-138 | The shown divs of consecutive runs are the shown divs of the first run followed by those of the second, so document order is kept. |
| Layout.ExtractAll | single_product.py:123-125 | There is one record per block, extracted on the given path. |
| Layout.TabZel2Items | single_product.py:111-121 | The blocks come from `ProdukteCar` inside `ProdgrupDesktop` when both exist, from `ProdgrupDesktop` without `ProdukteCar`, and from the whole TabZel2 without `ProdgrupDesktop`. |
| Layout.TabZel2Variants | single_product.py:107-127 | There is one record per block of the chosen container, extracted off the accordion path and in block order, for each of the three containers. |
| Layout.PanelVariants | single_product.py:134-148 | A panel gives the records of its shown content divs, in order, followed by the records of its `CarArtikel` blocks extracted on the accordion path. |
| Layout.AccordionAppend | single_product.py:134-150 | Panels contribute their records in panel order. |
| Layout.AccordionCount | single_product.py:134-148 | The accordion path gives exactly one record per shown content div and per `CarArtikel` block. |
| Layout.FallbackIgnored | single_product.py:75-80 | The page-wide `CarArtikel` fallback is not consulted once a structured layout has produced a record. |
| Layout.FallbackUsed | single_product.py:75-80 | Without structured records, every `CarArtikel` of the page gives one record. |
| Layout.TabZel2First | single_product.py:61-73 | TabZel2 records come first, and the accordion records follow. |
| Layout.EmptyPage | single_product.py:61-80 | A page without variant blocks gives no records. |
| Layout.ScrapeProductVariants | single_product.py:60-100 | The result is the cleanup of the deduplicated records, or [] when the page could not be rendered. Its serials are distinct and are exactly those of the records gathered. |
| Listing.FindRecommendation | product_links.py:142-148 | The parent walk reports true exactly when some ancestor is a `div` with class `productkundenintere`. |
| Listing.ProductLinks | product_links.py:134-152 | The product links are the resolved hrefs ending in `-Typen` inside `div#products`, outside any recommendations block. There are none without the container. |
| Listing.RecommendationsExcluded | product_links.py:137-152 | A link inside a recommendations block is never a product link, even inside `div#products`. |
| Listing.ResolvedHrefs | product_links.py:157-158 | Every anchor's href appears resolved in the list. The list is no longer than the anchors. It is empty when no anchor has an href, and is the anchors' resolved hrefs position by position when all have one. |
| Listing.ResolvedHrefsFrom | product_links.py:157-158 | Every resolved URL comes from an anchor with an href. |
| Listing.PaginationUrls | product_links.py:155-158 | Without a `.floatright` element there are no pagination URLs. With one, they are the resolved hrefs of its anchors. |
| Listing.ResolvedHrefsAppend | product_links.py:157-158 | The pagination URLs keep document order. |
| Listing.FetchPageLinks | product_links.py:93-163 | A page gives its product-link set and its pagination URLs. |
| Listing.ScrollToBottom | product_links.py:73-90 | There are at most `max_iterations` scrolls. The loop stops at the first round whose height equals the previous one, starting from 0. It runs at least one round when allowed. |
| Listing.ScrollWithDefault | product_links.py:73-81 | The call with the default bound scrolls at least once and at most 40 times. It stops before 40 only on an unchanged height. |
| Listing.FetchPageLinksMain | main.py:54-78 | main.py's reader gives no pair exactly when the status is not 200. Otherwise the product links are exactly the resolved hrefs, ending in `-Typen`, of all the page's anchors, with no container or recommendations filter. The pagination URLs are the resolved hrefs of the first `.floatright` element's anchors. |
| Listing.RenderedLinksAmongAll | main.py:64-69 | On one and the same document, whose `div#products` anchors are among its anchors, every product link the rendered-page reader finds, main.py's reader finds too. |
| Crawl.CrawlSequential | product_links.py:179-199 | The pages are fetched in the reference crawl's order, starting with the start URL. None is fetched twice, and the crawl runs until the queue is empty. The result is the union of the fetched pages' product links. |
| Crawl.QueueUnseen | product_links.py:195-197 | The queue grows by the page's links that are neither visited nor queued, in order. |
| Crawl.CrawlIsUnique | product_links.py:184-197 | There is only one whole crawl from a start page. |
| Crawl.RunDistinct | product_links.py:195-197 | No URL is ever queued twice. |
| Crawl.RunWithin | product_links.py:184-197 | A crawl stays within a universe closed under the pagination links. |
| Crawl.HarvestCovers | product_links.py:192 | Every product link of every fetched page is in the result. |
| Crawl.HarvestFrom | product_links.py:192 | Every link of the result comes from a fetched page. |
| Crawl.RunFollowsPages | product_links.py:191-197 | Only the pagination links steer the crawl. |
| Crawl.HarvestFollowsProducts | product_links.py:191-192 | Only the product links decide the result. |
| Crawl.BusyFollowsPages | product_links.py:184-197 | Readers that agree on the pagination links keep a crawl going for equally many steps. |
| Crawl.FetchAll | main.py:98-99 | The parallel fetch of a round gives one result per URL, in the round's order. |
| Crawl.ReadRound | main.py:98-99 | The same, with an unreadable page read as a page without links. |
| Crawl.FirstNone | main.py:102 | The unpacking fails at the first missing result, or nowhere. |
| Crawl.MergeRound | main.py:101-108 | Merging a round's results is the reference crawl advanced by the round's pages. The result gains their product links, and the round's URLs become visited. |
| Crawl.CollectUnseen | main.py:106-108 | The next round grows by the links that are neither visited, nor in the round, nor collected. |
| Crawl.CrawlBatch | main.py:81-112 | When every page answers, the crawl fetches the reference crawl's pages and returns the union of their product links. Otherwise it fails, naming the first unreadable page in crawl order. |
| Crawl.FailureIsFirst | main.py:99-102 | The page that stops main.py's crawl is the first unreadable page in crawl order. |
| Crawl.UnreadableStartFails | main.py:57-59 | An unreadable start page makes main.py's crawl fail on that page. |
| Crawl.UnreadableStartFirst | main.py:57-59 | With an unreadable start page, the first unreadable page is the start page. |
| Crawl.CrawlBatchTolerant | main.py:96-112 | Unreadable pages count as pages without links. The crawl fetches the reference crawl's pages and returns the union of the product links of every readable page. |
| Crawl.RoundsMatchQueue | main.py:96-110 | When every page answers, main.py's rounds and product_links.py's queue fetch the same pages in the same order and gather the same links. |
| Categories.MenuUrl | main.py:33-34 | Menu `n` has the menu endpoint followed by the digit `n` as its URL: one character longer, ending in the digit whose value is `n`. |
| Categories.LinksUpTo | main.py:40-46 | Each menu's group links are among the links gathered. |
| Categories.FirstFailingMenu | main.py:33-36 | This is the first menu whose request fails with an HTTP error, or none when all succeed. |
| Categories.SubSubCategoryLinks | main.py:20-48 | The call fails at the first failing menu with no partial result. Otherwise it returns the group links of the six menus, sorted and without duplicates. |
| Categories.LeafTestIsSuffixTest | main.py:44 | No href ends in both `-Hauptgruppe` and `-Gruppe`, so the second test excludes nothing. |
| Categories.LinksMonotone | main.py:33-46 | The links only grow as more menus are read. |
| Categories.EveryMenuCounts | main.py:40-46 | A group link of any menu is in the result whatever the other menus hold. |
| StringOrder.SortedList | main.py:48 | `sorted(links)` is strictly ascending and holds exactly the set's elements. |
| StringOrder.Insert | main.py:48 | Insertion keeps the list strictly sorted and adds exactly the new element. |
| StringOrder.LessIrreflexive | main.py:48 | The order is irreflexive. |
| StringOrder.LessTransitive | main.py:48 | The order is transitive. |
| StringOrder.LessTotal | main.py:48 | The order is total. |

## Left out

- Browser and network I/O is not modelled: Selenium and Playwright rendering, `requests`, sleeps, timeouts and the cookie banner. A rendered or fetched page is an input: `Layout.Page`, `Listing.ListingPage`, `Listing.Response` or `Categories.MenuResponse`. The page reader of a crawl is a function parameter.
- HTML parsing and CSS selector matching are not modelled. Each `find`/`find_all` is the `Option` or sequence it returns. An element is reduced to its text nodes, and an anchor to its href and ancestor chain.
- `urljoin` is a library call and is a function parameter.
- The thread pools run in parallel, but their results keep the input order. The batch fetch is therefore a sequential map.
- CSV writing, console output and `scrape_all_products_to_csv` (main.py:420-470) are I/O and are not modelled.
- The `except Exception` at single_product.py:99-100 is only the case where no page could be rendered, which gives []. Other exceptions are not modelled.
- `get_product_variants` (single_product.py:294, main.py:399) only forwards its argument. main.py:119-369 repeats single_product.py's scraping functions unchanged. Only its `clean_product_data` differs, and that one is modelled separately.
- Python's `\d` also matches non-ASCII decimal digits. `Text.IsDigit` admits only `0`-`9`.
- The two listing readers see different documents. product_links.py reads the rendered, scrolled page, while main.py reads the raw response, which lacks the lazily loaded products. Listing.RenderedLinksAmongAll compares the readers on one shared document only, and the model does not relate the rendered page to the raw one.
- The scroll loop's JavaScript calls and waits are not modelled. The document height after each scroll is an oracle parameter.
- The `if product_data:` test at single_product.py:141 always holds, because the record built always has three keys. It is not modelled as a branch.
- `return list(all_product_links)` (product_links.py:199, main.py:112) is modelled as the set itself. The order of the list is that of Python's set iteration, which nothing else depends on.
- The commented-out code at product_links.py:1-66 and the module-level script at product_links.py:201-210 are not part of the model.
- Crawl.CrawlSequential: termination is proved only for a start page inside a ghost `universe` closed under the pagination links. The crawl over an infinite link graph is not modelled. The same holds for Crawl.CrawlBatch and Crawl.CrawlBatchTolerant.
- Crawl.CrawlBatch: its contract speaks of the ghost total reader `F` (main.py's reader, with an unreadable page as a page without links). `F` is tied to the real reader by the precondition `TotalOf`.
- Categories.SubSubCategoryLinks: a failing request gives the number of the failing menu, in place of the exception `raise_for_status` raises. A status outside 400-599 other than 200 counts as success, as in `requests`.

## Findings

| source | as written | input that shows it | evidently intended | confidence | as-written member | corrected member |
|---|---|---|---|---|---|---|
| main.py:388-391 | The euro literal of main.py's price cleanup is the three characters `â‚¬` (U+00E2 U+201A U+00AC). The character class therefore removes a real `€`. | The price `"12,50 €"` cleans to `"12,50"` in main.py but to `"12,50 €"` in single_product.py. | The real `€` is kept and moved to a trailing `" €"`, as at single_product.py:283-286. | medium, not executed (the literal may come from a re-encoding of the file) | Cleanup.CleanPriceMainCopy, with Cleanup.MainCopyDropsEuro | Cleanup.CleanPrice |
| main.py:57-59 | On a status other than 200, `fetch_page_links` returns `set()`, which the loop at main.py:102 unpacks into two names. The whole crawl fails and the links already gathered are lost. | A start page answering 404 makes the crawl fail on that page. | An unreadable page contributes no links and the crawl goes on. | high, not executed | Crawl.CrawlBatch, with Crawl.UnreadableStartFails | Crawl.CrawlBatchTolerant |

=== FILE: categories.dfy ===
/** `get_sub_sub_category_links`: the product-group pages linked from the six
    top-level menus. The HTTP session and `urljoin` are parameters; a menu
    response is abstracted to its status code and the `href` values of its
    `a.MainMenuLink` anchors. */
module Categories {
  import opened Wrappers
  import opened Text
  import opened StringOrder

  datatype MenuResponse = MenuResponse(status: int, hrefs: seq<string>)

  const BaseUrl: string := "https://www.tomanro.de/"
  const MenuEndpoint: string := "https://www.tomanro.de/MenuDeskNeu.php?Menubut="
  const MenuCount: nat := 6
  const GroupSuffix: string := "-Gruppe"
  const MainGroupSuffix: string := "-Hauptgruppe"

  /** The endpoint of top-level menu `n`, for 1 <= n <= 9. */
  function MenuUrl(n: nat): (r: string)
    requires 1 <= n <= 9
    ensures StartsWith(r, MenuEndpoint) && |r| == |MenuEndpoint| + 1
    ensures IsDigit(r[|r| - 1]) && r[|r| - 1] as int == '0' as int + n
  {
    MenuEndpoint + [('0' as int + n) as char]
  }

  /** `raise_for_status` raises for client and server errors. */
  predicate IsHttpError(status: int) {
    400 <= status < 600
  }

  /** A final product-listing group: ends in `-Gruppe` and not in `-Hauptgruppe`. */
  predicate IsLeafGroup(href: string) {
    EndsWith(href, GroupSuffix) && !EndsWith(href, MainGroupSuffix)
  }

  /** The group URLs linked from one menu. */
  function MenuLinks(hrefs: seq<string>, join: (string, string) -> string): set<string> {
    set h | h in hrefs && IsLeafGroup(Trim(h)) :: join(BaseUrl, Trim(h))
  }

  lemma MenuLinksSnoc(hrefs: seq<string>, h: string, join: (string, string) -> string)
    ensures MenuLinks(hrefs + [h], join)
         == MenuLinks(hrefs, join) + (if IsLeafGroup(Trim(h)) then {join(BaseUrl, Trim(h))} else {})
  {
  }

  /** The group URLs linked from menus 1 to `n`. */
  function LinksUpTo(get: string -> MenuResponse, join: (string, string) -> string, n: nat): (r: set<string>)
    requires n <= MenuCount
    ensures n > 0 ==> MenuLinks(get(MenuUrl(n)).hrefs, join) <= r
  {
    if n == 0 then {} else LinksUpTo(get, join, n - 1) + MenuLinks(get(MenuUrl(n)).hrefs, join)
  }

  /** The first menu, among 1 to `n`, whose request fails; None when all succeed. */
  function FirstFailingMenu(get: string -> MenuResponse, n: nat): (r: Option<nat>)
    requires n <= MenuCount
    ensures r.Some? ==> 1 <= r.value <= n && IsHttpError(get(MenuUrl(r.value)).status)
    ensures r.Some? ==> forall k | 1 <= k < r.value :: !IsHttpError(get(MenuUrl(k)).status)
    ensures r.None? ==> forall k | 1 <= k <= n :: !IsHttpError(get(MenuUrl(k)).status)
  {
    if n == 0 then None
    else match FirstFailingMenu(get, n - 1)
      case Some(k) => Some(k)
      case None => if IsHttpError(get(MenuUrl(n)).status) then Some(n) else None
  }

  /** `get_sub_sub_category_links`: the sorted group URLs of all six menus, or
      the number of the first menu whose request fails with an HTTP error. */
  method SubSubCategoryLinks(get: string -> MenuResponse, join: (string, string) -> string)
    returns (r: Result<seq<string>, nat>)
    ensures r.Failure? <==> FirstFailingMenu(get, MenuCount).Some?
    ensures r.Failure? ==> r.error == FirstFailingMenu(get, MenuCount).value
    ensures r.Success? ==> StrictlySorted(r.value) && Elems(r.value) == LinksUpTo(get, join, MenuCount)
  {
    var links: set<string> := {};
    for menu := 1 to MenuCount + 1
      invariant links == LinksUpTo(get, join, menu - 1)
      invariant FirstFailingMenu(get, menu - 1).None?
    {
      var resp := get(MenuUrl(menu));
      if IsHttpError(resp.status) {
        return Failure(menu);
      }
      ghost var before := links;
      for i := 0 to |resp.hrefs|
        invariant links == before + MenuLinks(resp.hrefs[..i], join)
      {
        var href := Trim(resp.hrefs[i]);
        assert resp.hrefs[..i + 1] == resp.hrefs[..i] + [resp.hrefs[i]];
        MenuLinksSnoc(resp.hrefs[..i], resp.hrefs[i], join);
        if EndsWith(href, GroupSuffix) && !EndsWith(href, MainGroupSuffix) {
          links := links + {join(BaseUrl, href)};
        }
      }
      assert resp.hrefs[..|resp.hrefs|] == resp.hrefs;
    }
    var sorted := SortedList(links);
    r := Success(sorted);
  }

  // ---------------------------------------------------------------------
  // Lemmas
  // ---------------------------------------------------------------------

  /** No href ends in both suffixes, so the `-Hauptgruppe` test never
      excludes anything the `-Gruppe` test admits. */
  lemma LeafTestIsSuffixTest(href: string)
    ensures IsLeafGroup(href) <==> EndsWith(href, GroupSuffix)
  {
    if EndsWith(href, MainGroupSuffix) {
      assert href[|href| - 7] == MainGroupSuffix[5] == 't';
    }
  }

  /** The links of the menus only grow as more menus are read. */
  lemma {:induction false} LinksMonotone(get: string -> MenuResponse, join: (string, string) -> string, m: nat, n: nat)
    requires m <= n <= MenuCount
    ensures LinksUpTo(get, join, m) <= LinksUpTo(get, join, n)
    decreases n - m
  {
    if m < n {
      var a, b, c := LinksUpTo(get, join, m), LinksUpTo(get, join, n - 1), LinksUpTo(get, join, n);
      LinksMonotone(get, join, m, n - 1);
      assert a <= b;
      LinksStep(get, join, n);
      assert b <= c;
      SubsetTrans(a, b, c);
    }
  }

  lemma LinksStep(get: string -> MenuResponse, join: (string, string) -> string, n: nat)
    requires 1 <= n <= MenuCount
    ensures LinksUpTo(get, join, n - 1) <= LinksUpTo(get, join, n)
  {
  }

  lemma SubsetTrans<T>(a: set<T>, b: set<T>, c: set<T>)
    requires a <= b && b <= c
    ensures a <= c
  {
  }

  /** A group link of any menu is in the result, whatever the other menus hold. */
  lemma EveryMenuCounts(get: string -> MenuResponse, join: (string, string) -> string, n: nat, h: string)
    requires 1 <= n <= MenuCount
    requires h in get(MenuUrl(n)).hrefs && EndsWith(Trim(h), GroupSuffix)
    ensures join(BaseUrl, Trim(h)) in LinksUpTo(get, join, MenuCount)
  {
    LeafTestIsSuffixTest(Trim(h));
    LinksMonotone(get, join, n, MenuCount);
  }
}

=== FILE: cleanup.dfy ===
/** `clean_product_data`: the name and price normalisation applied to every
    record after deduplication, together with the diverging copy of it that
    main.py carries. */
module Cleanup {
  import opened Text
  import opened Variants

  const Euro: char := '\U{20AC}'

  /** The suffix the cleanup guarantees: one space, then the euro sign. */
  const EuroSuffix: string := [' ', Euro]

  /** The characters the substitution `[^\d,\s€]` leaves in place. */
  predicate IsPriceChar(c: char) {
    IsDigit(c) || c == ',' || IsSpace(c) || c == Euro
  }

  /** The characters the filter keeps, apart from the euro sign: digits,
      commas and whitespace. */
  predicate IsPriceBody(c: char) {
    IsPriceChar(c) && c != Euro
  }

  /** The characters that carry the amount: digits and the decimal comma. */
  predicate IsAmountChar(c: char) {
    IsDigit(c) || c == ','
  }

  /** No amount character is whitespace, so `strip()` never removes one. */
  lemma AmountIsNotSpace()
    ensures forall c :: IsAmountChar(c) ==> !IsSpace(c)
  {
    forall c | IsAmountChar(c) {
      PrintableIsNotSpace(c);
    }
  }

  /** The first two tokens are equal and there is at least a third. */
  predicate HasDoubledLead(words: seq<string>) {
    |words| > 2 && words[0] == words[1]
  }

  /** Name cleanup: drops a doubled leading token. */
  function CleanName(name: string): (r: string)
    ensures IsTrimmed(r)
    ensures Split(r) == (if HasDoubledLead(Split(name)) then Split(name)[1..] else Split(name))
    ensures HasDoubledLead(Split(name)) ==> r == Join(Split(name)[1..])
    ensures !HasDoubledLead(Split(name)) ==> r == Trim(name)
  {
    var words := Split(name);
    if |words| > 2 && words[0] == words[1] then
      JoinIsTrimmed(words[1..]);
      SplitJoin(words[1..]);
      Trim(Join(words[1..]))
    else
      SplitOfTrim(name);
      Trim(name)
  }

  /** Price cleanup: only digits, commas, whitespace and the euro sign are
      kept, and a euro sign is moved to a single trailing " €". */
  function CleanPrice(price: string): (r: string)
    ensures forall i | 0 <= i < |r| :: IsPriceChar(r[i])
    ensures Euro in r ==> EndsWith(r, EuroSuffix)
    ensures Euro in price <==> Euro in r
    ensures Keep(r, IsAmountChar) == Keep(price, IsAmountChar)
    ensures r != EuroSuffix ==> IsTrimmed(r)
    ensures var kept := Trim(Keep(price, IsPriceChar));
      Euro in kept && !EndsWith(kept, EuroSuffix) ==> Count(r, Euro) == 1
    ensures var kept := Trim(Keep(price, IsPriceChar));
      !(Euro in kept && !EndsWith(kept, EuroSuffix)) ==> Count(r, Euro) == Count(price, Euro)
    ensures Split(Keep(r, IsPriceBody)) == Split(Keep(price, IsPriceBody))
  {
    var kept := Trim(Keep(price, IsPriceChar));
    FilteredPrice(price);
    FilteredPriceWords(price);
    if Euro in kept && !EndsWith(kept, EuroSuffix) then
      MoveEuro(kept);
      MoveEuroWords(kept);
      EuroIsNotSpace();
      Trim(RemoveAll(kept, [Euro])) + EuroSuffix
    else
      FilteredPriceCount(price);
      kept
  }

  /** Filtering and stripping keep the words of the digits, commas and
      whitespace, so whitespace inside the amount stays a separator. */
  lemma FilteredPriceWords(price: string)
    ensures Split(Keep(Trim(Keep(price, IsPriceChar)), IsPriceBody)) == Split(Keep(price, IsPriceBody))
  {
    EuroIsNotSpace();
    SplitKeepOfTrim(Keep(price, IsPriceChar), IsPriceBody);
    KeepKeep(price, IsPriceChar, IsPriceBody);
  }

  /** Filtering and stripping keep every euro sign. */
  lemma FilteredPriceCount(price: string)
    ensures Count(Trim(Keep(price, IsPriceChar)), Euro) == Count(price, Euro)
  {
    EuroIsNotSpace();
    CountTrim(Keep(price, IsPriceChar), Euro);
    CountKeep(price, IsPriceChar, Euro);
  }

  /** Moving the euro sign to the end changes no word of the rest. */
  lemma MoveEuroWords(kept: string)
    ensures Split(Keep(Trim(RemoveAll(kept, [Euro])) + EuroSuffix, IsPriceBody)) == Split(Keep(kept, IsPriceBody))
  {
    var removed := RemoveAll(kept, [Euro]);
    var bare := Trim(removed);
    BlankIsSpace();
    EuroIsNotSpace();
    KeepAppend(bare, EuroSuffix, IsPriceBody);
    assert Keep(EuroSuffix, IsPriceBody) == " " by {
      assert EuroSuffix[1..] == [Euro] && [Euro][1..] == [];
    }
    assert AllSpace(" ");
    SplitIgnoresTrailingSpace(Keep(bare, IsPriceBody), " ");
    SplitKeepOfTrim(removed, IsPriceBody);
    KeepOfRemoveAll(kept, [Euro], IsPriceBody);
  }

  lemma {:induction false} CountKeep(s: string, keep: char -> bool, c: char)
    requires keep(c)
    ensures Count(Keep(s, keep), c) == Count(s, c)
    decreases |s|
  {
    if s != [] {
      CountKeep(s[1..], keep, c);
      if keep(s[0]) {
        var k := [s[0]] + Keep(s[1..], keep);
        assert k[0] == s[0] && k[1..] == Keep(s[1..], keep);
      }
    }
  }

  /** `strip()` removes no character that is not whitespace. */
  lemma CountTrim(s: string, c: char)
    requires !IsSpace(c)
    ensures Count(Trim(s), c) == Count(s, c)
  {
    var t := TrimLeft(s);
    TrimLeftSuffix(s);
    var pre := s[..|s| - |t|];
    assert s == pre + t;
    var m := TrimRight(t);
    TrimRightPrefix(t);
    var post := t[|m|..];
    assert t == m + post;
    assert Trim(s) == m;
    CountAppend(pre, t, c);
    CountAppend(m, post, c);
    CountAbsent(pre, c);
    CountAbsent(post, c);
  }

  /** What the character filter and the strip leave of a price. */
  lemma FilteredPrice(price: string)
    ensures var kept := Trim(Keep(price, IsPriceChar));
      && (forall i | 0 <= i < |kept| :: IsPriceChar(kept[i]))
      && (Euro in price <==> Euro in kept)
      && Keep(kept, IsAmountChar) == Keep(price, IsAmountChar)
  {
    TrimKeepsClass(Keep(price, IsPriceChar), IsPriceChar);
    EuroSurvivesFilter(price);
    AmountSurvivesFilter(price);
  }

  /** The rewrite branch: every euro sign removed, one " €" appended. */
  lemma MoveEuro(kept: string)
    requires forall i | 0 <= i < |kept| :: IsPriceChar(kept[i])
    ensures var r := Trim(RemoveAll(kept, [Euro])) + EuroSuffix;
      && (forall i | 0 <= i < |r| :: IsPriceChar(r[i]))
      && Count(r, Euro) == 1
      && Keep(r, IsAmountChar) == Keep(kept, IsAmountChar)
  {
    var removed := RemoveAll(kept, [Euro]);
    var bare := Trim(removed);
    RemoveAllKeepsClass(kept, [Euro], IsPriceChar);
    TrimKeepsClass(removed, IsPriceChar);
    BlankIsSpace();
    MoveEuroCount(kept);
    MoveEuroAmount(kept);
  }

  lemma MoveEuroCount(kept: string)
    ensures Count(Trim(RemoveAll(kept, [Euro])) + EuroSuffix, Euro) == 1
  {
    var removed := RemoveAll(kept, [Euro]);
    var bare := Trim(removed);
    RemoveAllChar(kept, Euro);
    TrimKeepsClass(removed, c => c != Euro);
    CountAppend(bare, EuroSuffix, Euro);
    CountAbsent(bare, Euro);
    assert Count(EuroSuffix, Euro) == 1 by {
      assert [Euro][1..] == [];
      assert Count([Euro], Euro) == 1;
      assert EuroSuffix[0] != Euro && EuroSuffix[1..] == [Euro];
    }
  }

  lemma MoveEuroAmount(kept: string)
    ensures Keep(Trim(RemoveAll(kept, [Euro])) + EuroSuffix, IsAmountChar) == Keep(kept, IsAmountChar)
  {
    var removed := RemoveAll(kept, [Euro]);
    var bare := Trim(removed);
    KeepOfRemoveAll(kept, [Euro], IsAmountChar);
    AmountIsNotSpace();
    KeepOfTrim(removed, IsAmountChar);
    KeepAppend(bare, EuroSuffix, IsAmountChar);
    assert Keep(EuroSuffix, IsAmountChar) == [] by {
      assert !IsAmountChar(' ') && !IsAmountChar(Euro);
      KeepNothing(EuroSuffix, IsAmountChar);
    }
  }

  lemma {:induction false} CountAppend(a: string, b: string, c: char)
    ensures Count(a + b, c) == Count(a, c) + Count(b, c)
    decreases |a|
  {
    if a == [] {
      assert a + b == b;
    } else {
      assert (a + b)[1..] == a[1..] + b;
      CountAppend(a[1..], b, c);
    }
  }

  lemma {:induction false} CountAbsent(s: string, c: char)
    requires forall i | 0 <= i < |s| :: s[i] != c
    ensures Count(s, c) == 0
    decreases |s|
  {
    if s != [] {
      CountAbsent(s[1..], c);
    }
  }

  /** The euro sign passes the character filter and the strip. */
  lemma EuroSurvivesFilter(price: string)
    ensures Euro in price <==> Euro in Trim(Keep(price, IsPriceChar))
  {
    var k := Keep(price, IsPriceChar);
    if Euro in price {
      EuroInKeep(price);
      EuroIsNotSpace();
      TrimKeeps(k, Euro);
    }
    if Euro in Trim(k) {
      TrimSubset(k);
      KeepSubset(price, IsPriceChar);
    }
  }

  /** The amount characters pass the character filter and the strip. */
  lemma AmountSurvivesFilter(price: string)
    ensures Keep(Trim(Keep(price, IsPriceChar)), IsAmountChar) == Keep(price, IsAmountChar)
  {
    AmountIsNotSpace();
    KeepOfTrim(Keep(price, IsPriceChar), IsAmountChar);
    KeepKeep(price, IsPriceChar, IsAmountChar);
  }

  lemma {:induction false} EuroInKeep(s: string)
    requires Euro in s
    ensures Euro in Keep(s, IsPriceChar)
    decreases |s|
  {
    if s[0] != Euro {
      EuroInKeep(s[1..]);
    }
  }

  lemma {:induction false} KeepSubset(s: string, keep: char -> bool)
    ensures forall c | c in Keep(s, keep) :: c in s
    decreases |s|
  {
    if s != [] {
      KeepSubset(s[1..], keep);
    }
  }

  lemma TrimSubset(s: string)
    ensures forall c | c in Trim(s) :: c in s
  {
    var t := TrimLeft(s);
    TrimLeftSuffix(s);
    TrimRightPrefix(t);
    forall c | c in Trim(s) ensures c in s {
      var i :| 0 <= i < |Trim(s)| && Trim(s)[i] == c;
      assert t[i] == c;
      assert s[|s| - |t| + i] == c;
    }
  }

  /** A cleaned price is its own cleanup. */
  lemma CleanPriceIdempotent(price: string)
    ensures CleanPrice(CleanPrice(price)) == CleanPrice(price)
  {
    var r := CleanPrice(price);
    var kept := Trim(Keep(price, IsPriceChar));
    if Euro in kept && !EndsWith(kept, EuroSuffix) {
      var bare := Trim(RemoveAll(kept, [Euro]));
      if bare == [] {
        assert r == EuroSuffix;
        LoneEuroFixed();
      } else {
        EuroIsNotSpace();
        assert IsTrimmed(r);
        CleanPriceFixes(r);
      }
    } else {
      CleanPriceFixes(r);
    }
  }

  /** A trimmed string of price characters whose euro sign, if any, ends it
      after a space is left as it is. */
  lemma CleanPriceFixes(r: string)
    requires forall i | 0 <= i < |r| :: IsPriceChar(r[i])
    requires IsTrimmed(r) && (Euro in r ==> EndsWith(r, EuroSuffix))
    ensures CleanPrice(r) == r
  {
    KeepEverything(r, IsPriceChar);
  }

  /** A price that is only the euro sign cleans to " €", which stays. */
  lemma LoneEuroFixed()
    ensures CleanPrice(EuroSuffix) == EuroSuffix
  {
    var r := EuroSuffix;
    BlankIsSpace();
    EuroIsNotSpace();
    KeepEverything(r, IsPriceChar);
    assert Trim(r) == [Euro] by {
      assert TrimLeft(r) == [Euro];
      assert TrimRight([Euro]) == [Euro];
    }
    assert RemoveAll([Euro], [Euro]) == [] by {
      assert StartsWith([Euro], [Euro]);
      assert [Euro][1..] == [];
    }
  }

  /** The cleanup of one record: the serial is left as it is. */
  function CleanRecord(v: Variant): (r: Variant)
    ensures r.serial == v.serial
  {
    Variant(CleanName(v.name), CleanPrice(v.price), v.serial)
  }

  /** `clean_product_data`: one cleaned record per input record, in order. */
  function CleanProductData(vs: seq<Variant>): (r: seq<Variant>)
    ensures |r| == |vs|
    ensures forall i | 0 <= i < |vs| :: r[i] == CleanRecord(vs[i])
  {
    seq(|vs|, i requires 0 <= i < |vs| => CleanRecord(vs[i]))
  }

  /** Cleanup leaves the serials, and therefore the result of the serial
      deduplication, untouched. */
  lemma CleanupKeepsSerials(vs: seq<Variant>)
    ensures Serials(CleanProductData(vs)) == Serials(vs)
    ensures SerialsDistinct(vs) ==> SerialsDistinct(CleanProductData(vs))
  {
    var r := CleanProductData(vs);
    assert forall i | 0 <= i < |vs| :: r[i].serial == vs[i].serial;
    forall x | x in Serials(vs) ensures x in Serials(r) {
      var i :| 0 <= i < |vs| && vs[i].serial != "" && vs[i].serial == x;
      assert r[i].serial == x;
    }
  }

  // ---------------------------------------------------------------------
  // The copy of clean_product_data in main.py
  // ---------------------------------------------------------------------

  /** The euro literal of main.py's copy: the three characters U+00E2 U+201A
      U+00AC that the UTF-8 bytes of `€` become when read as Windows-1252 and
      re-encoded. */
  const MojibakeEuro: string := ['\U{00E2}', '\U{201A}', '\U{00AC}']

  /** The suffix main.py's copy moves its literal to: a space, then the literal. */
  const MojibakeSuffix: string := [' '] + MojibakeEuro

  /** The characters main.py's substitution leaves in place. */
  predicate IsMainPriceChar(c: char) {
    IsDigit(c) || c == ',' || IsSpace(c) || c in MojibakeEuro
  }

  /** main.py's price cleanup, with its literal as it stands. */
  function CleanPriceMainCopy(price: string): (r: string)
    ensures forall i | 0 <= i < |r| :: IsMainPriceChar(r[i])
    ensures Euro !in r
    ensures Keep(r, IsAmountChar) == Keep(price, IsAmountChar)
  {
    var kept := Trim(Keep(price, IsMainPriceChar));
    FilteredPriceMainCopy(price);
    var r :=
      if Contains(kept, MojibakeEuro) && !EndsWith(kept, MojibakeSuffix) then
        MoveMojibakeEuro(kept);
        Trim(RemoveAll(kept, MojibakeEuro)) + MojibakeSuffix
      else
        kept;
    EuroIsNoMainPriceChar(r);
    r
  }

  /** The euro sign is not whitespace. */
  lemma EuroIsNotSpace()
    ensures !IsSpace(Euro)
  {
    OutsideRanges(Euro as int, SpaceRanges);
  }

  /** The real euro sign is not among the characters main.py's filter keeps. */
  lemma EuroIsNoMainPriceChar(s: string)
    requires forall i | 0 <= i < |s| :: IsMainPriceChar(s[i])
    ensures Euro !in s
  {
    EuroIsNotSpace();
    assert !IsMainPriceChar(Euro);
  }

  lemma FilteredPriceMainCopy(price: string)
    ensures var kept := Trim(Keep(price, IsMainPriceChar));
      && (forall i | 0 <= i < |kept| :: IsMainPriceChar(kept[i]))
      && Keep(kept, IsAmountChar) == Keep(price, IsAmountChar)
  {
    TrimKeepsClass(Keep(price, IsMainPriceChar), IsMainPriceChar);
    AmountIsNotSpace();
    KeepOfTrim(Keep(price, IsMainPriceChar), IsAmountChar);
    KeepKeep(price, IsMainPriceChar, IsAmountChar);
  }

  lemma MoveMojibakeEuro(kept: string)
    requires forall i | 0 <= i < |kept| :: IsMainPriceChar(kept[i])
    ensures var r := Trim(RemoveAll(kept, MojibakeEuro)) + MojibakeSuffix;
      && (forall i | 0 <= i < |r| :: IsMainPriceChar(r[i]))
      && Keep(r, IsAmountChar) == Keep(kept, IsAmountChar)
  {
    var removed := RemoveAll(kept, MojibakeEuro);
    var bare := Trim(removed);
    RemoveAllKeepsClass(kept, MojibakeEuro, IsMainPriceChar);
    TrimKeepsClass(removed, IsMainPriceChar);
    MojibakeSuffixFacts();
    ClassAppend(bare, MojibakeSuffix, IsMainPriceChar);
    KeepOfRemoveAll(kept, MojibakeEuro, IsAmountChar);
    AmountIsNotSpace();
    KeepOfTrim(removed, IsAmountChar);
    KeepAppend(bare, MojibakeSuffix, IsAmountChar);
  }

  lemma MojibakeSuffixFacts()
    ensures forall i | 0 <= i < |MojibakeSuffix| :: IsMainPriceChar(MojibakeSuffix[i])
    ensures Keep(MojibakeSuffix, IsAmountChar) == []
  {
    BlankIsSpace();
    KeepNothing(MojibakeSuffix, IsAmountChar);
  }

  lemma ClassAppend(a: string, b: string, keep: char -> bool)
    requires forall i | 0 <= i < |a| :: keep(a[i])
    requires forall i | 0 <= i < |b| :: keep(b[i])
    ensures forall i | 0 <= i < |a + b| :: keep((a + b)[i])
  {
  }

  lemma {:induction false} RemoveAllSubset(s: string, p: string)
    ensures forall c | c in RemoveAll(s, p) :: c in s
    decreases |s|
  {
    if p == [] {
    } else if StartsWith(s, p) {
      RemoveAllSubset(s[|p|..], p);
    } else if s != [] {
      RemoveAllSubset(s[1..], p);
    }
  }

  /** Wherever a price carries a euro sign, single_product.py's cleanup ends
      it with " €" while main.py's copy drops the sign altogether; the amount
      digits agree. */
  lemma MainCopyDropsEuro(price: string)
    requires Euro in price
    ensures EndsWith(CleanPrice(price), EuroSuffix)
    ensures Euro !in CleanPriceMainCopy(price)
    ensures Keep(CleanPriceMainCopy(price), IsAmountChar) == Keep(CleanPrice(price), IsAmountChar)
  {
  }
}

=== FILE: crawl.dfy ===
/** `get_all_product_links`, the crawl over a category's pagination pages,
    in its two forms: product_links.py's sequential first-in first-out queue
    and main.py's parallel rounds. The page reader is a parameter `fetch`;
    `universe` is a ghost set of URLs closed under the pagination links,
    which is what makes a crawl finite. Both forms are measured against one
    reference, `Run`: the queue of a crawl after a number of pages have been
    fetched, each page's unseen links joining the end of the queue. */
module Crawl {
  import opened Wrappers
  import opened Listing

  predicate Distinct(xs: seq<string>) {
    forall i, j | 0 <= i < j < |xs| :: xs[i] != xs[j]
  }

  /** The links of a page that could not be read. */
  const NoLinks: PageLinks := PageLinks({}, [])

  /** Every pagination link of every page of `universe` stays in it. */
  predicate Closed(fetch: string -> PageLinks, universe: set<string>) {
    forall u, p | u in universe && p in fetch(u).pages :: p in universe
  }

  /** Every pagination link of every readable page of `universe` stays in it. */
  predicate ClosedWhenRead(fetch: string -> Option<PageLinks>, universe: set<string>) {
    forall u, p | u in universe && fetch(u).Some? && p in fetch(u).value.pages :: p in universe
  }

  /** Every URL of `xs` is in `universe`. */
  predicate Within(xs: seq<string>, universe: set<string>) {
    forall x | x in xs :: x in universe
  }

  /** `known` extended by each of `pages` not seen yet, in order. */
  function Enqueue(known: seq<string>, pages: seq<string>): (r: seq<string>)
    ensures known <= r
  {
    if pages == [] then known
    else
      var k := Enqueue(known, pages[..|pages| - 1]);
      var p := pages[|pages| - 1];
      if p in k then k else k + [p]
  }

  /** The URLs ever queued by a crawl whose queue started as `known`, once
      the pages at positions `k` to `k + count - 1` have been fetched and their
      unseen links queued, or fewer when the queue runs out first. */
  function Run(fetch: string -> PageLinks, known: seq<string>, k: nat, count: nat): (r: seq<string>)
    ensures known <= r
  {
    if count == 0 then known
    else
      var prev := Run(fetch, known, k, count - 1);
      if k + count - 1 < |prev| then Enqueue(prev, fetch(prev[k + count - 1]).pages) else prev
  }

  /** The crawl from `start` still had a page to fetch at each of its first
      `count` steps. */
  predicate Busy(fetch: string -> PageLinks, start: string, count: nat) {
    count == 0 || (Busy(fetch, start, count - 1) && count - 1 < |Run(fetch, [start], 0, count - 1)|)
  }

  /** `fetched` is a whole crawl from `start`: fetching its pages in order
      queues exactly them, and the queue never ran out earlier. */
  predicate Crawled(fetch: string -> PageLinks, start: string, fetched: seq<string>) {
    fetched == Run(fetch, [start], 0, |fetched|) && Busy(fetch, start, |fetched|)
  }

  /** The product links of the fetched pages. */
  function Harvest(fetch: string -> PageLinks, us: seq<string>): (r: set<string>)
    ensures us == [] ==> r == {}
  {
    if us == [] then {} else Harvest(fetch, us[..|us| - 1]) + fetch(us[|us| - 1]).products
  }

  /** `reader` is main.py's page reader `fetch` seen as a total one: a page
      that could not be read has no links. */
  ghost predicate TotalOf(reader: string -> PageLinks, fetch: string -> Option<PageLinks>) {
    forall u :: reader(u) == fetch(u).GetOr(NoLinks)
  }

  // ---------------------------------------------------------------------
  // product_links.py: one page at a time
  // ---------------------------------------------------------------------

  /** product_links.py's `get_all_product_links`. `fetched` is the order in
      which pages are fetched. The `continue` for an already visited URL is
      never taken, since no URL is queued twice. */
  method CrawlSequential(start: string, fetch: string -> PageLinks, ghost universe: set<string>)
    returns (links: set<string>, fetched: seq<string>)
    requires start in universe && Closed(fetch, universe)
    ensures Crawled(fetch, start, fetched)
    ensures |fetched| > 0 && fetched[0] == start && Distinct(fetched)
    ensures links == Harvest(fetch, fetched)
  {
    var visited: set<string> := {};
    var queue := [start];
    links := {};
    fetched := [];
    while queue != []
      invariant fetched + queue == Run(fetch, [start], 0, |fetched|)
      invariant Busy(fetch, start, |fetched|)
      invariant Distinct(fetched + queue) && Within(fetched + queue, universe)
      invariant forall x :: x in visited <==> x in fetched
      invariant visited <= universe
      invariant links == Harvest(fetch, fetched)
      decreases |universe - visited|, |queue|
    {
      var current := queue[0];
      HeadUnseen(fetched, queue);
      ghost var known := fetched + queue;
      MoveHead(fetched, queue);
      assert known[|fetched|] == current && known[..|fetched|] == fetched;
      queue := queue[1..];
      if current !in visited {
        SetGrows(universe, visited, current);
        visited := visited + {current};
        var page := fetch(current);
        links := links + page.products;
        HarvestSnoc(fetch, fetched, current);
        var queue' := QueueUnseen(fetched + [current], visited, queue, page.pages);
        QueueStep(fetch, universe, start, fetched, known, queue');
        fetched, queue := fetched + [current], queue';
      }
    }
  }

  /** The inner loop of product_links.py's crawl: each pagination link that
      is neither visited nor queued joins the end of the queue. */
  method QueueUnseen(ghost fetched: seq<string>, visited: set<string>, queue: seq<string>, pages: seq<string>)
    returns (queue': seq<string>)
    requires forall x :: x in visited <==> x in fetched
    ensures fetched + queue' == Enqueue(fetched + queue, pages)
  {
    queue' := queue;
    for j := 0 to |pages|
      invariant fetched + queue' == Enqueue(fetched + queue, pages[..j])
    {
      var p := pages[j];
      assert pages[..j + 1][..j] == pages[..j];
      if p !in visited && p !in queue' {
        queue' := queue' + [p];
      }
    }
    assert pages[..|pages|] == pages;
  }

  // ---------------------------------------------------------------------
  // main.py: parallel rounds
  // ---------------------------------------------------------------------

  /** The pages of a round, fetched in parallel; the results keep the
      round's order. */
  method FetchAll(fetch: string -> Option<PageLinks>, round: seq<string>) returns (results: seq<Option<PageLinks>>)
    ensures |results| == |round|
    ensures forall i | 0 <= i < |round| :: results[i] == fetch(round[i])
  {
    results := [];
    for i := 0 to |round|
      invariant |results| == i
      invariant forall j | 0 <= j < i :: results[j] == fetch(round[j])
    {
      results := results + [fetch(round[i])];
    }
  }

  /** The pages of a round, fetched in parallel, an unreadable page
      counting as one without links. */
  method ReadRound(fetch: string -> Option<PageLinks>, ghost F: string -> PageLinks, round: seq<string>)
    returns (results: seq<PageLinks>)
    requires TotalOf(F, fetch)
    ensures |results| == |round|
    ensures forall i | 0 <= i < |round| :: results[i] == F(round[i])
  {
    results := [];
    for i := 0 to |round|
      invariant |results| == i
      invariant forall j | 0 <= j < i :: results[j] == F(round[j])
    {
      results := results + [fetch(round[i]).GetOr(NoLinks)];
    }
  }

  /** The position of the first result that is missing, if any: the
      position at which main.py's unpacking fails. */
  method FirstNone(results: seq<Option<PageLinks>>) returns (r: Option<nat>)
    ensures r.Some? ==> r.value < |results| && results[r.value].None?
    ensures r.Some? ==> forall j | 0 <= j < r.value :: results[j].Some?
    ensures r.None? ==> forall j | 0 <= j < |results| :: results[j].Some?
  {
    for i := 0 to |results|
      invariant forall j | 0 <= j < i :: results[j].Some?
    {
      if results[i].None? {
        return Some(i);
      }
    }
    return None;
  }

  /** The loop over one round's results in main.py's `get_all_product_links`:
      the round's product links are added, its URLs marked visited, and its
      unseen pagination links collected, in order, for the next round. */
  method MergeRound(ghost fetch: string -> PageLinks, ghost start: string, ghost fetched: seq<string>,
                    visited: set<string>, links: set<string>, round: seq<string>, results: seq<PageLinks>)
    returns (links': set<string>, visited': set<string>, next: seq<string>)
    requires fetched + round == Run(fetch, [start], 0, |fetched|) && Busy(fetch, start, |fetched|)
    requires |results| == |round| && forall i | 0 <= i < |round| :: results[i] == fetch(round[i])
    requires forall x :: x in visited <==> x in fetched
    requires links == Harvest(fetch, fetched)
    ensures fetched + round + next == Run(fetch, [start], 0, |fetched + round|)
    ensures Busy(fetch, start, |fetched + round|)
    ensures forall x :: x in visited' <==> x in fetched + round
    ensures links' == Harvest(fetch, fetched + round)
  {
    links', visited', next := links, visited, [];
    assert fetched + round[..0] == fetched;
    assert fetched + round + next == fetched + round;
    for i := 0 to |round|
      invariant fetched + round + next == Run(fetch, [start], 0, |fetched| + i)
      invariant Busy(fetch, start, |fetched| + i)
      invariant forall x :: x in visited' <==> x in fetched + round[..i]
      invariant links' == Harvest(fetch, fetched + round[..i])
    {
      SnocSlice(fetched, round, i);
      links' := links' + results[i].products;
      HarvestSnoc(fetch, fetched + round[..i], round[i]);
      visited' := visited' + {round[i]};
      var next' := CollectUnseen(fetched, visited', round, next, results[i].pages, i);
      MergeStep(fetch, start, fetched, round, next, next', i);
      next := next';
    }
    assert round[..|round|] == round;
  }

  /** The innermost loop of main.py's crawl: each pagination link that is
      neither visited, nor in the current round, nor already collected is
      collected. `visited` holds the fetched pages and the round's first
      `i + 1` URLs. */
  method CollectUnseen(ghost fetched: seq<string>, visited: set<string>, round: seq<string>, next: seq<string>,
                       pages: seq<string>, ghost i: nat)
    returns (next': seq<string>)
    requires i < |round|
    requires forall x :: x in visited <==> x in fetched + round[..i + 1]
    ensures fetched + round + next' == Enqueue(fetched + round + next, pages)
  {
    next' := next;
    for j := 0 to |pages|
      invariant fetched + round + next' == Enqueue(fetched + round + next, pages[..j])
    {
      var p := pages[j];
      assert pages[..j + 1][..j] == pages[..j];
      if p !in visited && p !in round && p !in next' {
        next' := next' + [p];
      }
    }
    assert pages[..|pages|] == pages;
  }

  /** `u` is the `n`-th page the crawl from `start` fetches, and every page
      fetched before it could be read. */
  predicate FirstUnreadableAt(reader: string -> PageLinks, fetch: string -> Option<PageLinks>, start: string, n: nat, u: string) {
    var queued := Run(reader, [start], 0, n);
    Busy(reader, start, n) && n < |queued| && queued[n] == u && fetch(u).None?
    && ReadableUpTo(fetch, queued, n)
  }

  /** The first `n` URLs of `xs` can be read. */
  predicate ReadableUpTo(fetch: string -> Option<PageLinks>, xs: seq<string>, n: nat)
    requires n <= |xs|
  {
    forall j | 0 <= j < n :: fetch(xs[j]).Some?
  }

  /** main.py's `get_all_product_links` as written. A page answered with a
      status other than 200 makes its reader return an empty set where a
      pair is unpacked, so the whole crawl fails: the result is the URL of
      that page. Within a round every page is fetched before the results
      are read, and the links gathered before the failure are discarded with
      it, so the failure is decided before the round is merged. The crawl is
      measured against `F`, the reader seen as a total one. */
  method CrawlBatch(start: string, fetch: string -> Option<PageLinks>, ghost F: string -> PageLinks, ghost universe: set<string>)
    returns (r: Result<set<string>, string>, fetched: seq<string>)
    requires TotalOf(F, fetch)
    requires start in universe && ClosedWhenRead(fetch, universe)
    ensures r.Success? ==> Crawled(F, start, fetched)
    ensures r.Success? ==> forall u | u in fetched :: fetch(u).Some?
    ensures r.Success? ==> r.value == Harvest(F, fetched)
    ensures r.Failure? ==> exists n :: FirstUnreadableAt(F, fetch, start, n, r.error)
  {
    ClosedTotal(F, fetch, universe);
    var visited: set<string> := {};
    var round := [start];
    var links: set<string> := {};
    fetched := [];
    while round != []
      invariant fetched + round == Run(F, [start], 0, |fetched|)
      invariant Busy(F, start, |fetched|)
      invariant Distinct(fetched + round) && Within(fetched + round, universe)
      invariant forall x :: x in visited <==> x in fetched
      invariant visited <= universe
      invariant links == Harvest(F, fetched)
      invariant forall u | u in fetched :: fetch(u).Some?
      decreases |universe - visited|
    {
      var results := FetchAll(fetch, round);
      var failed := FirstNone(results);
      if failed.Some? {
        var i := failed.value;
        FailureIsFirst(F, fetch, start, fetched, round, i);
        r := Failure(round[i]);
        return;
      }
      var values := seq(|round|, i requires 0 <= i < |round| => results[i].value);
      var links', visited', next := MergeRound(F, start, fetched, visited, links, round, values);
      RoundStep(F, universe, start, fetched + round, next);
      RoundGrows(universe, visited, visited', fetched, round);
      links, visited := links', visited';
      fetched, round := fetched + round, next;
    }
    r := Success(links);
  }

  /** The crawl main.py evidently meant: a page that cannot be read
      contributes no links and the crawl goes on. */
  method CrawlBatchTolerant(start: string, fetch: string -> Option<PageLinks>, ghost F: string -> PageLinks, ghost universe: set<string>)
    returns (links: set<string>, fetched: seq<string>)
    requires TotalOf(F, fetch)
    requires start in universe && ClosedWhenRead(fetch, universe)
    ensures Crawled(F, start, fetched)
    ensures links == Harvest(F, fetched)
    ensures forall j | 0 <= j < |fetched| && fetch(fetched[j]).Some? :: fetch(fetched[j]).value.products <= links
  {
    ClosedTotal(F, fetch, universe);
    var visited: set<string> := {};
    var round := [start];
    links := {};
    fetched := [];
    while round != []
      invariant fetched + round == Run(F, [start], 0, |fetched|)
      invariant Busy(F, start, |fetched|)
      invariant Distinct(fetched + round) && Within(fetched + round, universe)
      invariant forall x :: x in visited <==> x in fetched
      invariant visited <= universe
      invariant links == Harvest(F, fetched)
      decreases |universe - visited|
    {
      var results := ReadRound(fetch, F, round);
      var links', visited', next := MergeRound(F, start, fetched, visited, links, round, results);
      RoundStep(F, universe, start, fetched + round, next);
      RoundGrows(universe, visited, visited', fetched, round);
      links, visited := links', visited';
      fetched, round := fetched + round, next;
    }
    forall j | 0 <= j < |fetched| && fetch(fetched[j]).Some?
      ensures fetch(fetched[j]).value.products <= links
    {
      assert F(fetched[j]) == fetch(fetched[j]).value;
      HarvestCovers(F, fetched, j);
    }
  }

  /** The discrepancy at its smallest: when the start page itself cannot be
      read, main.py's crawl fails on it and returns no links at all, where
      `CrawlBatchTolerant` carries on with a page without links. */
  method UnreadableStartFails(start: string, fetch: string -> Option<PageLinks>, ghost F: string -> PageLinks, ghost universe: set<string>)
    returns (r: Result<set<string>, string>)
    requires TotalOf(F, fetch)
    requires start in universe && ClosedWhenRead(fetch, universe)
    requires fetch(start).None?
    ensures r == Failure(start)
  {
    ghost var fetched;
    r, fetched := CrawlBatch(start, fetch, F, universe);
    if r.Success? {
      CrawlFetchesStart(F, start, fetched);
      assert false;
    }
    ghost var n :| FirstUnreadableAt(F, fetch, start, n, r.error);
    UnreadableStartFirst(F, fetch, start, n, r.error);
  }

  // ---------------------------------------------------------------------
  // Lemmas
  // ---------------------------------------------------------------------

  /** A whole crawl fetches its start page first. */
  lemma CrawlFetchesStart(fetch: string -> PageLinks, start: string, fetched: seq<string>)
    requires Crawled(fetch, start, fetched)
    ensures fetched != [] && fetched[0] == start && start in fetched
  {
  }

  /** With an unreadable start page, the first unreadable page is the start
      page, at step 0. */
  lemma UnreadableStartFirst(F: string -> PageLinks, fetch: string -> Option<PageLinks>, start: string, n: nat, u: string)
    requires fetch(start).None? && FirstUnreadableAt(F, fetch, start, n, u)
    ensures n == 0 && u == start
  {
    var queued := Run(F, [start], 0, n);
    assert queued[0] == start;
  }

  /** A crawl is determined by its start page and the pages' links: there is
      only one whole crawl. */
  lemma CrawlIsUnique(fetch: string -> PageLinks, start: string, a: seq<string>, b: seq<string>)
    requires Crawled(fetch, start, a) && Crawled(fetch, start, b)
    ensures a == b
  {
    if |a| < |b| {
      BusyBelow(fetch, start, |b|, |a|);
    } else if |b| < |a| {
      BusyBelow(fetch, start, |a|, |b|);
    }
  }

  /** A crawl busy for `count` steps had a page to fetch at each of them. */
  lemma {:induction false} BusyBelow(fetch: string -> PageLinks, start: string, count: nat, m: nat)
    requires Busy(fetch, start, count) && m < count
    ensures m < |Run(fetch, [start], 0, m)|
    decreases count
  {
    if m < count - 1 {
      BusyBelow(fetch, start, count - 1, m);
    }
  }

  /** A crawl whose queue, after `m` steps, still holds its `n`-th page was
      busy for `n` steps if it was for `m`. */
  lemma {:induction false} BusyGrows(fetch: string -> PageLinks, start: string, m: nat, n: nat)
    requires m <= n && Busy(fetch, start, m) && n < |Run(fetch, [start], 0, m)|
    ensures Busy(fetch, start, n)
    decreases n - m
  {
    if m < n {
      BusyGrows(fetch, start, m + 1, n);
      RunPrefix(fetch, [start], 0, m, m + 1);
    }
  }

  /** What queueing a page's links does: the queue only grows, by links of
      the page, holds all of them afterwards, and never holds a URL twice. */
  lemma {:induction false} EnqueueFacts(known: seq<string>, pages: seq<string>)
    ensures forall x | x in Enqueue(known, pages) :: x in known || x in pages
    ensures forall x | x in pages :: x in Enqueue(known, pages)
    ensures Distinct(known) ==> Distinct(Enqueue(known, pages))
    decreases |pages|
  {
    if pages != [] {
      EnqueueFacts(known, pages[..|pages| - 1]);
      var k := Enqueue(known, pages[..|pages| - 1]);
      forall x | x in pages
        ensures x in Enqueue(known, pages)
      {
        if x != pages[|pages| - 1] {
          assert x in pages[..|pages| - 1];
        }
      }
    }
  }

  /** A crawl never queues a URL twice. */
  lemma {:induction false} RunDistinct(fetch: string -> PageLinks, known: seq<string>, k: nat, count: nat)
    requires Distinct(known)
    ensures Distinct(Run(fetch, known, k, count))
    decreases count
  {
    if count > 0 {
      RunDistinct(fetch, known, k, count - 1);
      var prev := Run(fetch, known, k, count - 1);
      if k + count - 1 < |prev| {
        EnqueueFacts(prev, fetch(prev[k + count - 1]).pages);
      }
    }
  }

  /** Every product link of every fetched page is harvested. */
  lemma {:induction false} HarvestCovers(fetch: string -> PageLinks, us: seq<string>, i: nat)
    requires i < |us|
    ensures fetch(us[i]).products <= Harvest(fetch, us)
    decreases |us|
  {
    if i < |us| - 1 {
      HarvestCovers(fetch, us[..|us| - 1], i);
    }
  }

  /** Every harvested link comes from one of the fetched pages. */
  lemma {:induction false} HarvestFrom(fetch: string -> PageLinks, us: seq<string>, x: string)
    requires x in Harvest(fetch, us)
    ensures exists i | 0 <= i < |us| :: x in fetch(us[i]).products
    decreases |us|
  {
    if x !in fetch(us[|us| - 1]).products {
      HarvestFrom(fetch, us[..|us| - 1], x);
    }
  }

  /** A crawl within a closed universe stays in it. */
  lemma {:induction false} RunWithin(fetch: string -> PageLinks, universe: set<string>, start: string, count: nat)
    requires start in universe && Closed(fetch, universe)
    ensures Within(Run(fetch, [start], 0, count), universe)
    decreases count
  {
    if count > 0 {
      RunWithin(fetch, universe, start, count - 1);
      var prev := Run(fetch, [start], 0, count - 1);
      if count - 1 < |prev| {
        assert prev[count - 1] in prev;
        EnqueueFacts(prev, fetch(prev[count - 1]).pages);
      }
    }
  }

  /** A universe closed under the links of main.py's readable pages is
      closed under the links of the total reader. */
  lemma ClosedTotal(F: string -> PageLinks, fetch: string -> Option<PageLinks>, universe: set<string>)
    requires TotalOf(F, fetch) && ClosedWhenRead(fetch, universe)
    ensures Closed(F, universe)
  {
    forall u, p | u in universe && p in F(u).pages
      ensures p in universe
    {
      assert F(u) == fetch(u).GetOr(NoLinks);
    }
  }

  /** The queue after one more page of product_links.py's crawl stays in the
      universe. */
  lemma EnqueueWithin(fetch: string -> PageLinks, universe: set<string>, known: seq<string>, pages: seq<string>, u: string)
    requires Closed(fetch, universe) && Within(known, universe)
    requires u in universe && pages == fetch(u).pages
    ensures Within(Enqueue(known, pages), universe)
  {
    EnqueueFacts(known, pages);
  }

  lemma HarvestSnoc(fetch: string -> PageLinks, us: seq<string>, u: string)
    ensures Harvest(fetch, us + [u]) == Harvest(fetch, us) + fetch(u).products
  {
    assert (us + [u])[..|us|] == us;
  }

  /** The URL at the head of the queue has not been fetched. */
  lemma HeadUnseen(fetched: seq<string>, queue: seq<string>)
    requires queue != [] && Distinct(fetched + queue)
    ensures queue[0] !in fetched
  {
    forall j | 0 <= j < |fetched|
      ensures fetched[j] != queue[0]
    {
      assert (fetched + queue)[j] == fetched[j];
      assert (fetched + queue)[|fetched|] == queue[0];
    }
  }

  lemma MoveHead(xs: seq<string>, q: seq<string>)
    requires q != []
    ensures (xs + [q[0]]) + q[1..] == xs + q
  {
    assert q == [q[0]] + q[1..];
  }

  lemma SnocSlice(xs: seq<string>, q: seq<string>, i: nat)
    requires i < |q|
    ensures xs + q[..i + 1] == (xs + q[..i]) + [q[i]]
  {
    assert q[..i + 1] == q[..i] + [q[i]];
  }

  /** The page that stops main.py's crawl is the first unreadable one in
      crawl order. */
  lemma FailureIsFirst(F: string -> PageLinks, fetch: string -> Option<PageLinks>, start: string,
                        fetched: seq<string>, round: seq<string>, i: nat)
    requires fetched + round == Run(F, [start], 0, |fetched|)
    requires Busy(F, start, |fetched|)
    requires forall u | u in fetched :: fetch(u).Some?
    requires i < |round| && fetch(round[i]).None?
    requires forall j | 0 <= j < i :: fetch(round[j]).Some?
    ensures Busy(F, start, |fetched| + i)
    ensures |fetched| + i < |Run(F, [start], 0, |fetched| + i)|
    ensures Run(F, [start], 0, |fetched| + i)[|fetched| + i] == round[i]
    ensures ReadableUpTo(fetch, Run(F, [start], 0, |fetched| + i), |fetched| + i)
    ensures FirstUnreadableAt(F, fetch, start, |fetched| + i, round[i])
  {
    var n := |fetched| + i;
    var known := fetched + round;
    RunPrefix(F, [start], 0, |fetched|, n);
    var queued := Run(F, [start], 0, n);
    assert known <= queued;
    assert queued[n] == known[n] == round[i];
    BusyGrows(F, start, |fetched|, n);
    forall j | 0 <= j < n
      ensures fetch(queued[j]).Some?
    {
      if j < |fetched| {
        assert queued[j] == known[j] == fetched[j];
      } else {
        assert queued[j] == known[j] == round[j - |fetched|];
      }
    }
    assert ReadableUpTo(fetch, queued, n);
  }

  /** Fetching more pages only extends the queue. */
  lemma {:induction false} RunPrefix(fetch: string -> PageLinks, known: seq<string>, k: nat, m: nat, n: nat)
    requires m <= n
    ensures Run(fetch, known, k, m) <= Run(fetch, known, k, n)
    decreases n - m
  {
    if m < n {
      RunPrefix(fetch, known, k, m, n - 1);
    }
  }

  /** Adding an unvisited URL of the universe shrinks what is left of it. */
  lemma SetGrows(universe: set<string>, visited: set<string>, u: string)
    requires visited <= universe && u in universe && u !in visited
    ensures |universe - (visited + {u})| < |universe - visited|
  {
    assert universe - visited == (universe - (visited + {u})) + {u};
  }

  /** After one page of product_links.py's crawl, the queue is again the
      reference crawl's queue, without repetitions and within the universe. */
  lemma QueueStep(fetch: string -> PageLinks, universe: set<string>, start: string,
                  fetched: seq<string>, known: seq<string>, queue': seq<string>)
    requires Closed(fetch, universe)
    requires known == Run(fetch, [start], 0, |fetched|) && Busy(fetch, start, |fetched|)
    requires |fetched| < |known| && fetched == known[..|fetched|]
    requires Distinct(known) && Within(known, universe)
    requires fetched + [known[|fetched|]] + queue' == Enqueue(known, fetch(known[|fetched|]).pages)
    ensures var done := fetched + [known[|fetched|]];
      && done + queue' == Run(fetch, [start], 0, |done|)
      && Busy(fetch, start, |done|)
      && Distinct(done + queue') && Within(done + queue', universe)
  {
    var n := |fetched|;
    var u := known[n];
    RunStep(fetch, start, n);
    assert u in known;
    EnqueueWithin(fetch, universe, known, fetch(u).pages, u);
    EnqueueFacts(known, fetch(u).pages);
  }

  /** One more step of a crawl that still has a page to fetch queues that
      page's unseen links and keeps it busy. */
  lemma RunStep(fetch: string -> PageLinks, start: string, n: nat)
    requires Busy(fetch, start, n) && n < |Run(fetch, [start], 0, n)|
    ensures var queued := Run(fetch, [start], 0, n);
      Run(fetch, [start], 0, n + 1) == Enqueue(queued, fetch(queued[n]).pages)
    ensures Busy(fetch, start, n + 1)
  {
  }

  /** After a round, the queue of the next round is again the reference
      crawl's queue, without repetitions and within the universe. */
  lemma RoundStep(F: string -> PageLinks, universe: set<string>, start: string,
                  done: seq<string>, next: seq<string>)
    requires start in universe && Closed(F, universe)
    requires done + next == Run(F, [start], 0, |done|)
    ensures Distinct(done + next) && Within(done + next, universe)
  {
    RunWithin(F, universe, start, |done|);
    RunDistinct(F, [start], 0, |done|);
  }

  /** Merging the `i`-th page of a round is one more step of the reference
      crawl. */
  lemma MergeStep(fetch: string -> PageLinks, start: string, fetched: seq<string>, round: seq<string>,
                  next: seq<string>, next': seq<string>, i: nat)
    requires i < |round|
    requires fetched + round + next == Run(fetch, [start], 0, |fetched| + i) && Busy(fetch, start, |fetched| + i)
    requires fetched + round + next' == Enqueue(fetched + round + next, fetch(round[i]).pages)
    ensures fetched + round + next' == Run(fetch, [start], 0, |fetched| + (i + 1))
    ensures Busy(fetch, start, |fetched| + (i + 1))
  {
    var known := fetched + round + next;
    assert known[|fetched| + i] == round[i];
    RunStep(fetch, start, |fetched| + i);
  }

  /** Visiting a non-empty round of unvisited URLs shrinks what is left. */
  lemma RoundGrows(universe: set<string>, visited: set<string>, visited': set<string>, fetched: seq<string>, round: seq<string>)
    requires round != [] && Distinct(fetched + round) && Within(fetched + round, universe)
    requires forall x :: x in visited <==> x in fetched
    requires forall x :: x in visited' <==> x in fetched + round
    ensures visited' <= universe
    ensures |universe - visited'| < |universe - visited|
  {
    HeadUnseen(fetched, round);
    assert (fetched + round)[|fetched|] == round[0];
    assert visited' == visited' + visited + {round[0]};
    assert universe - visited == (universe - visited') + (visited' - visited);
    assert round[0] in visited' - visited;
  }

  /** Only the pagination links steer the crawl: two readers that agree on
      them queue the same URLs in the same order. */
  lemma {:induction false} RunFollowsPages(f: string -> PageLinks, g: string -> PageLinks, known: seq<string>, k: nat, count: nat)
    requires forall u :: f(u).pages == g(u).pages
    ensures Run(f, known, k, count) == Run(g, known, k, count)
    decreases count
  {
    if count > 0 {
      RunFollowsPages(f, g, known, k, count - 1);
    }
  }

  /** Two readers that agree on every page's product links harvest the same. */
  lemma {:induction false} HarvestFollowsProducts(f: string -> PageLinks, g: string -> PageLinks, us: seq<string>)
    requires forall u | u in us :: f(u).products == g(u).products
    ensures Harvest(f, us) == Harvest(g, us)
    decreases |us|
  {
    if us != [] {
      HarvestFollowsProducts(f, g, us[..|us| - 1]);
    }
  }

  /** Two readers that agree on the pagination links keep a crawl busy for
      the same number of steps. */
  lemma {:induction false} BusyFollowsPages(f: string -> PageLinks, g: string -> PageLinks, start: string, count: nat)
    requires forall u :: f(u).pages == g(u).pages
    ensures Busy(f, start, count) <==> Busy(g, start, count)
    decreases count
  {
    if count > 0 {
      BusyFollowsPages(f, g, start, count - 1);
      RunFollowsPages(f, g, [start], 0, count - 1);
    }
  }

  /** When every page answers, main.py's rounds and product_links.py's queue
      fetch the same pages in the same order and gather the same links. */
  lemma RoundsMatchQueue(read: string -> PageLinks, fetch: string -> Option<PageLinks>, F: string -> PageLinks,
                         start: string, fetched: seq<string>)
    requires TotalOf(F, fetch)
    requires forall u :: fetch(u) == Some(read(u))
    ensures Crawled(F, start, fetched) <==> Crawled(read, start, fetched)
    ensures Harvest(F, fetched) == Harvest(read, fetched)
  {
    forall u
      ensures F(u) == read(u)
    {
      assert F(u) == fetch(u).GetOr(NoLinks);
    }
    RunFollowsPages(F, read, [start], 0, |fetched|);
    BusyFollowsPages(F, read, start, |fetched|);
    HarvestFollowsProducts(F, read, fetched);
  }
}

=== FILE: extract.dfy ===
/** The per-variant field extraction of single_product.py: how one
    `CarArtikel` block or one accordion content div becomes a `Variant`
    record. Parsed HTML is abstracted to the results of the lookups the code
    performs: each `find(...)` becomes an `Option` of the element found, and
    an element is reduced to its text nodes in document order. */
module Extract {
  import opened Wrappers
  import opened Text
  import opened Variants
  import opened Cleanup

  /** A parsed element, reduced to its text nodes in document order. */
  datatype Element = Element(texts: seq<string>)

  /** The `div.SortPreis2` of a variant and the `span.preis` found inside it. */
  datatype SortPreis = SortPreis(element: Element, preis: Option<Element>)

  /** An `img.Bildanzeigen`: its `alt` and `title` attributes, when present. */
  datatype Image = Image(alt: Option<string>, title: Option<string>)

  /** A `div.CarArtikel`, as the results of the lookups made in it. The two
      description lookups and the two details lookups differ in the class
      selector used: `ArtTypBez` / `ArtDetailsCar` on the non-accordion path,
      `ArtTypBez Bezeichnung` / `ArtDetailsCar HstArtikel` on the accordion
      path. */
  datatype CarArtikel = CarArtikel(
    typBez: Option<Element>,
    typBezBezeichnung: Option<Element>,
    sortPreis: Option<SortPreis>,
    details: Option<Element>,
    detailsHst: Option<Element>,
    image: Option<Image>)

  /** A `div.content` of an accordion panel. `style` is its style attribute. */
  datatype ContentDiv = ContentDiv(
    style: Option<string>,
    bezeichnung: Option<Element>,
    preis: Option<Element>,
    detailsHst: Option<Element>)

  // ---------------------------------------------------------------------
  // Element text
  // ---------------------------------------------------------------------

  /** `element.text.strip()`. */
  function Stripped(e: Element): (r: string)
    ensures IsStripOf(Concat(e.texts), r)
  {
    TrimIsStrip(Concat(e.texts));
    Trim(Concat(e.texts))
  }

  /** `element.get_text(strip=True)`: every text node stripped, then glued
      together without a separator. */
  function StrippedJoin(parts: seq<string>): (r: string)
    ensures IsTrimmed(r)
    ensures |r| <= |Concat(parts)|
    ensures |parts| == 1 ==> r == Trim(parts[0])
  {
    if parts == [] then [] else Trim(parts[0]) + StrippedJoin(parts[1..])
  }

  /** `get_text(strip=True)` treats the text nodes one by one: the nodes of
      consecutive runs give the concatenation of the runs' results. */
  lemma {:induction false} StrippedJoinAppend(xs: seq<string>, ys: seq<string>)
    ensures StrippedJoin(xs + ys) == StrippedJoin(xs) + StrippedJoin(ys)
    decreases |xs|
  {
    if xs == [] {
      assert xs + ys == ys;
    } else {
      var zs := xs + ys;
      assert zs != [] && zs[0] == xs[0] && zs[1..] == xs[1..] + ys;
      assert StrippedJoin(zs) == Trim(xs[0]) + StrippedJoin(xs[1..] + ys);
      StrippedJoinAppend(xs[1..], ys);
      AppendAssoc(Trim(xs[0]), StrippedJoin(xs[1..]), StrippedJoin(ys));
    }
  }

  lemma AppendAssoc(a: string, b: string, c: string)
    ensures a + (b + c) == (a + b) + c
  {
  }

  // ---------------------------------------------------------------------
  // Names
  // ---------------------------------------------------------------------

  /** The description of a `CarArtikel` with the base name taken out: when the
      base name occurs in it, every occurrence is deleted and the rest is
      stripped (an empty base name occurs everywhere and deletes nothing). */
  function VariantName(raw: string, base: string): (r: string)
    ensures IsTrimmed(raw) ==> IsTrimmed(r)
    ensures !Contains(raw, base) ==> r == raw
    ensures base != [] && Contains(raw, base) ==> |r| < |raw|
  {
    if Contains(raw, base) then
      RemoveAllShrinks(raw, base);
      Trim(RemoveAll(raw, base))
    else raw
  }

  /** The product name of a record: base name and description separated by a
      space when both are present, otherwise whichever one is not empty. */
  function CombineName(base: string, variant: string): (r: string)
    ensures base == [] ==> r == variant
    ensures variant == [] ==> r == base
    ensures base != [] ==> StartsWith(r, base)
    ensures IsTrimmed(base) && IsTrimmed(variant) ==> IsTrimmed(r)
  {
    if base != [] && variant != [] then base + " " + variant
    else if base != [] then base
    else variant
  }

  // ---------------------------------------------------------------------
  // The tax note `exkl.\s*\d+%\s*MwSt.` under re.IGNORECASE
  // ---------------------------------------------------------------------

  const TaxHead: string := "exkl."
  const TaxTail: string := "mwst."

  /** Character `c` matches pattern letter `p` case-insensitively, including
      the two non-ASCII characters whose case folding lands on an ASCII letter:
      KELVIN SIGN folds to `k` and LATIN SMALL LETTER LONG S folds to `s`. */
  predicate FoldEq(c: char, p: char) {
    c == p
    || ('a' <= p <= 'z' && c as int == p as int - 32)
    || (p == 'k' && c == '\U{212A}')
    || (p == 's' && c == '\U{017F}')
  }

  /** A character that matches a pattern letter is not whitespace. */
  lemma FoldedIsNotSpace(c: char, p: char)
    requires 'a' <= p <= 'z' && FoldEq(c, p)
    ensures !IsSpace(c)
  {
    if c <= '\U{84}' {
      PrintableIsNotSpace(c);
    } else {
      OutsideRanges(c as int, SpaceRanges);
    }
  }

  predicate StartsFold(s: string, p: string) {
    |p| <= |s| && forall i | 0 <= i < |p| :: FoldEq(s[i], p[i])
  }

  /** The head word of the tax note, in any case, starts `s`. */
  predicate HeadAt(s: string) {
    StartsFold(s, TaxHead)
  }

  /** The tail word of the tax note, in any case, starts `s`. */
  predicate TailAt(s: string) {
    StartsFold(s, TaxTail)
  }

  predicate AllDigits(s: string) {
    forall i | 0 <= i < |s| :: IsDigit(s[i])
  }

  /** The length of the leading whitespace run (`\s*`, greedy). */
  function SpaceRun(s: string): (n: nat)
    ensures n <= |s|
  {
    if s == [] || !IsSpace(s[0]) then 0 else 1 + SpaceRun(s[1..])
  }

  /** The length of the leading digit run (`\d*`, greedy). */
  function DigitRun(s: string): (n: nat)
    ensures n <= |s|
  {
    if s == [] || !IsDigit(s[0]) then 0 else 1 + DigitRun(s[1..])
  }

  /** The whitespace run is whitespace and cannot be extended. */
  lemma {:induction false} SpaceRunSpans(s: string)
    ensures AllSpace(s[..SpaceRun(s)])
    ensures SpaceRun(s) == |s| || !IsSpace(s[SpaceRun(s)])
    decreases |s|
  {
    if s != [] && IsSpace(s[0]) {
      SpaceRunSpans(s[1..]);
      assert s[..SpaceRun(s)] == [s[0]] + s[1..][..SpaceRun(s[1..])];
    }
  }

  /** The digit run is digits and cannot be extended. */
  lemma {:induction false} DigitRunSpans(s: string)
    ensures AllDigits(s[..DigitRun(s)])
    ensures DigitRun(s) == |s| || !IsDigit(s[DigitRun(s)])
    decreases |s|
  {
    if s != [] && IsDigit(s[0]) {
      DigitRunSpans(s[1..]);
      assert s[..DigitRun(s)] == [s[0]] + s[1..][..DigitRun(s[1..])];
    }
  }

  /** The length of the tax note matched at the start of `s`, if any. Every
      piece of the pattern is followed by a character class disjoint from it,
      so the greedy runs never need to give anything back. */
  function TaxMatch(s: string): (r: Option<nat>)
    ensures r.Some? ==> 12 <= r.value <= |s|
  {
    if !HeadAt(s) then None
    else match PercentAfterDigits(s, 5 + SpaceRun(s[5..]))
      case None => None
      case Some(b) => TailAfterSpace(s, b)
  }

  /** From position `a`: one or more digits and a percent sign; the position
      after the percent sign. */
  function PercentAfterDigits(s: string, a: nat): (r: Option<nat>)
    requires a <= |s|
    ensures r.Some? ==> a + 2 <= r.value <= |s| && s[r.value - 1] == '%'
  {
    var d := DigitRun(s[a..]);
    if d == 0 || a + d == |s| || s[a + d] != '%' then None else Some(a + d + 1)
  }

  /** From position `b`: a whitespace run and the tail word; the end of the word. */
  function TailAfterSpace(s: string, b: nat): (r: Option<nat>)
    requires b <= |s|
    ensures r.Some? ==> b + 5 <= r.value <= |s|
  {
    var c := b + SpaceRun(s[b..]);
    if TailAt(s[c..]) then Some(c + 5) else None
  }

  /** There is no tax note at any position of `s`. */
  predicate NoTaxNote(s: string) {
    forall j | 0 <= j <= |s| :: TaxMatch(s[j..]).None?
  }

  /** `re.sub(tax, '', s, flags=re.IGNORECASE)`: scanning left to right, each
      tax note found is deleted and the scan resumes after it. */
  function RemoveTax(s: string): (r: string)
    ensures |r| <= |s|
    decreases |s|
  {
    if s == [] then []
    else match TaxMatch(s)
      case Some(n) => RemoveTax(s[n..])
      case None => [s[0]] + RemoveTax(s[1..])
  }

  /** The price of a `CarArtikel`: an empty text stays empty; otherwise
      whitespace runs collapse to one space, tax notes are removed and the
      result is stripped. */
  function NormalisePrice(text: string): (r: string)
    ensures IsTrimmed(r)
    ensures text == [] ==> r == []
    ensures NoTaxNote(CollapseSpaces(text)) ==> Keep(r, NonSpace) == Keep(text, NonSpace) && Split(r) == Split(text)
  {
    if text == [] then []
    else
      var collapsed := CollapseSpaces(text);
      RemoveTaxUnchanged(collapsed);
      KeepOfTrim(RemoveTax(collapsed), NonSpace);
      CollapseKeepsText(text, NonSpace);
      SplitOfTrim(RemoveTax(collapsed));
      CollapseKeepsWords(text);
      Trim(RemoveTax(collapsed))
  }

  // ---------------------------------------------------------------------
  // The serial number fallback `Artikel-Nr\.:\s*([^\s]+)`
  // ---------------------------------------------------------------------

  const Label: string := "Artikel-Nr.:"

  /** The group captured when the pattern matches at the start of `s`. */
  function LabelledAt(s: string): (r: Option<string>)
    ensures r.Some? ==> r.value != [] && NoSpace(r.value)
  {
    if StartsWith(s, Label) then
      var w := Word(TrimLeft(s[|Label|..]));
      if w != [] then Some(w) else None
    else None
  }

  /** `re.search`: the capture at the first position where the pattern matches. */
  function SearchSerial(s: string): (r: Option<string>)
    ensures r.Some? ==> r.value != [] && NoSpace(r.value) && IsTrimmed(r.value)
    decreases |s|
  {
    match LabelledAt(s)
    case Some(w) => Some(w)
    case None => if s == [] then None else SearchSerial(s[1..])
  }

  /** A serial found by the search implies the label occurs in the text, so
      the `'Artikel-Nr.:' in text` test in front of the search never changes
      its outcome. */
  lemma {:induction false} SearchSerialHasLabel(s: string)
    ensures SearchSerial(s).Some? ==> Contains(s, Label)
    decreases |s|
  {
    if LabelledAt(s).Some? {
      assert s[0..] == s;
      assert OccursAt(s, Label, 0);
    } else if s != [] && SearchSerial(s).Some? {
      SearchSerialHasLabel(s[1..]);
      var k := IndexOf(s[1..], Label).value;
      assert s[k + 1..] == s[1..][k..];
      assert OccursAt(s, Label, k + 1);
    }
  }

  /** One attribute of the image: taken when it mentions the label and the
      pattern finds a serial in it. */
  function SerialFromAttribute(text: string): (r: Option<string>)
    ensures r.Some? ==> r.value != [] && NoSpace(r.value)
    ensures r.Some? ==> Contains(text, Label)
    ensures r == SearchSerial(text)
  {
    SearchSerialHasLabel(text);
    if Contains(text, Label) then SearchSerial(text) else None
  }

  /** The image fallback: `alt` first, then `title`; a missing attribute reads as "". */
  function SerialFromImage(img: Image): (r: Option<string>)
    ensures r.Some? ==> r.value != [] && NoSpace(r.value)
    ensures SerialFromAttribute(img.alt.GetOr("")).Some? ==> r == SerialFromAttribute(img.alt.GetOr(""))
    ensures SerialFromAttribute(img.alt.GetOr("")).None? ==> r == SerialFromAttribute(img.title.GetOr(""))
  {
    match SerialFromAttribute(img.alt.GetOr(""))
    case Some(w) => Some(w)
    case None => SerialFromAttribute(img.title.GetOr(""))
  }

  // ---------------------------------------------------------------------
  // Records
  // ---------------------------------------------------------------------

  function TextOr(e: Option<Element>): (r: string)
    ensures IsTrimmed(r)
  {
    match e
    case Some(el) => Stripped(el)
    case None => ""
  }

  /** The price text read from a `CarArtikel`, before normalisation: on the
      accordion path the `span.preis` inside `SortPreis2` is preferred. */
  function RawPrice(v: CarArtikel, isAccordion: bool): (r: string)
    ensures IsTrimmed(r)
    ensures v.sortPreis.None? ==> r == []
    ensures v.sortPreis.Some? && !isAccordion ==> r == StrippedJoin(v.sortPreis.value.element.texts)
    ensures v.sortPreis.Some? && isAccordion && v.sortPreis.value.preis.Some? ==>
      r == Stripped(v.sortPreis.value.preis.value)
    ensures v.sortPreis.Some? && isAccordion && v.sortPreis.value.preis.None? ==>
      r == StrippedJoin(v.sortPreis.value.element.texts)
  {
    match v.sortPreis
    case None => ""
    case Some(sp) =>
      if isAccordion && sp.preis.Some? then Stripped(sp.preis.value)
      else StrippedJoin(sp.element.texts)
  }

  /** The description element consulted on each path. */
  function Description(v: CarArtikel, isAccordion: bool): Option<Element> {
    if isAccordion then v.typBezBezeichnung else v.typBez
  }

  /** The details element consulted on each path. */
  function Details(v: CarArtikel, isAccordion: bool): Option<Element> {
    if isAccordion then v.detailsHst else v.details
  }

  /** `extract_variant_data`. */
  function ExtractVariantData(v: CarArtikel, base: string, isAccordion: bool): (r: Variant)
    ensures r.price == NormalisePrice(RawPrice(v, isAccordion))
    ensures IsTrimmed(r.price) && IsTrimmed(r.serial)
    ensures Description(v, isAccordion).None? ==> r.name == base
    ensures Description(v, isAccordion).Some? ==>
      r.name == CombineName(base, VariantName(Stripped(Description(v, isAccordion).value), base))
    ensures IsTrimmed(base) ==> IsTrimmed(r.name)
    ensures base != [] ==> StartsWith(r.name, base)
    ensures TextOr(Details(v, isAccordion)) != [] ==> r.serial == TextOr(Details(v, isAccordion))
    ensures TextOr(Details(v, isAccordion)) == [] && v.image.None? ==> r.serial == []
    ensures TextOr(Details(v, isAccordion)) == [] && v.image.Some? ==>
      r.serial == SerialFromImage(v.image.value).GetOr("")
  {
    var variantName :=
      match Description(v, isAccordion)
      case Some(e) => VariantName(Stripped(e), base)
      case None => "";
    var serial := TextOr(Details(v, isAccordion));
    var serial' :=
      if serial != [] then serial
      else match v.image
        case Some(img) => SerialFromImage(img).GetOr("")
        case None => "";
    Variant(CombineName(base, variantName), NormalisePrice(RawPrice(v, isAccordion)), serial')
  }

  /** `extract_variant_data_from_content`: the description is used as it is
      and the price only has its whitespace runs collapsed. */
  function ExtractVariantDataFromContent(c: ContentDiv, base: string): (r: Variant)
    ensures r.serial == TextOr(c.detailsHst)
    ensures IsTrimmed(r.price) && IsTrimmed(r.serial)
    ensures forall i | 0 <= i < |r.price| :: IsSpace(r.price[i]) ==> r.price[i] == ' '
    ensures forall i | 0 <= i < |r.price| - 1 :: !(r.price[i] == ' ' && r.price[i + 1] == ' ')
    ensures c.preis.None? ==> r.price == []
    ensures Keep(r.price, NonSpace) == Keep(TextOr(c.preis), NonSpace)
    ensures Split(r.price) == Split(TextOr(c.preis))
    ensures IsTrimmed(base) ==> IsTrimmed(r.name)
    ensures base != [] ==> StartsWith(r.name, base)
    ensures Split(r.name) == Split(base) + Split(TextOr(c.bezeichnung))
  {
    var price := TextOr(c.preis);
    CollapseKeepsText(price, NonSpace);
    CollapseKeepsWords(price);
    CombineNameWords(base, TextOr(c.bezeichnung));
    Variant(CombineName(base, TextOr(c.bezeichnung)), CollapseSpaces(price), TextOr(c.detailsHst))
  }

  // ---------------------------------------------------------------------
  // Lemmas
  // ---------------------------------------------------------------------

  lemma {:induction false} RemoveAllShrinks(s: string, p: string)
    ensures p != [] && Contains(s, p) ==> |RemoveAll(s, p)| < |s|
    decreases |s|
  {
    if p == [] || !Contains(s, p) {
      return;
    }
    var i := IndexOf(s, p).value;
    if !StartsWith(s, p) {
      assert s != [];
      assert i > 0;
      assert OccursAt(s[1..], p, i - 1) by {
        assert s[1..][i - 1..] == s[i..];
      }
      assert Contains(s[1..], p);
      RemoveAllShrinks(s[1..], p);
    }
  }

  /** `get_text(strip=True)` loses no text: apart from whitespace, every
      character of every text node is still there, in order. */
  lemma {:induction false} StrippedJoinKeepsText(parts: seq<string>, keep: char -> bool)
    requires forall c :: keep(c) ==> !IsSpace(c)
    ensures Keep(StrippedJoin(parts), keep) == Keep(Concat(parts), keep)
    decreases |parts|
  {
    if parts != [] {
      StrippedJoinKeepsText(parts[1..], keep);
      KeepAppend(Trim(parts[0]), StrippedJoin(parts[1..]), keep);
      KeepAppend(parts[0], Concat(parts[1..]), keep);
      KeepOfTrim(parts[0], keep);
    }
  }

  /** The words of a composed name are the base name's words followed by
      the description's words. */
  lemma CombineNameWords(base: string, variant: string)
    ensures Split(CombineName(base, variant)) == Split(base) + Split(variant)
  {
    assert Split([]) == [];
    if base != [] && variant != [] {
      BlankIsSpace();
      assert AllSpace(" ");
      SplitAroundSpace(base, " ", variant);
    }
  }

  /** On the content-div path the description is not stripped of the base
      name. When the description repeats a one-word base name, the name
      cleanup afterwards removes the repetition. */
  lemma ContentNameRepaired(base: string, desc: string)
    requires |Split(base)| == 1
    requires |Split(desc)| >= 2 && Split(desc)[0] == Split(base)[0]
    ensures CleanName(CombineName(base, desc)) == Join(Split(desc))
  {
    CombineNameWords(base, desc);
    var ws := Split(CombineName(base, desc));
    assert ws[1..] == Split(desc);
  }

  /** The repetition of a base name of two or more distinct words is not
      removed: the cleaned name keeps every word of both parts. */
  lemma MultiWordNameNotRepaired(base: string, desc: string)
    requires |Split(base)| >= 2 && Split(base)[0] != Split(base)[1]
    ensures Split(CleanName(CombineName(base, desc))) == Split(base) + Split(desc)
  {
    CombineNameWords(base, desc);
    SplitOfTrim(CombineName(base, desc));
  }

  /** The usual description: the base name, a blank, then the variant's own
      words. Only the variant's words remain, stripped. */
  lemma VariantNameOfPrefixed(base: string, d: string)
    requires base != [] && !IsSpace(base[0])
    requires !Contains(d, base)
    ensures VariantName(base + " " + d, base) == Trim(d)
  {
    var raw := base + " " + d;
    assert raw == base + (" " + d);
    assert raw[..|base|] == base && raw[|base|..] == " " + d;
    assert IndexOf(raw, base) == Some(0);
    RemoveAllAtFirst(raw, base, 0);
    assert raw[0..] == raw && raw[..0] == [];
    BlankIsSpace();
    assert !Contains(" " + d, base) by {
      forall j | 0 <= j <= |" " + d| ensures !OccursAt(" " + d, base, j) {
        if j == 0 {
          assert (" " + d)[0..][0] != base[0];
        } else {
          assert (" " + d)[j..] == d[j - 1..];
          assert !OccursAt(d, base, j - 1);
        }
      }
    }
    RemoveAllAbsent(" " + d, base);
    TrimLeftSkipsSpace(" ", d);
  }

  /** The two extraction paths agree on the name whenever the base name does
      not occur in the description. */
  lemma NamePathsAgree(desc: Element, base: string)
    requires !Contains(Stripped(desc), base)
    ensures CombineName(base, VariantName(Stripped(desc), base)) == CombineName(base, Stripped(desc))
  {
  }

  /** The pattern's pieces at the front of `s`: the head word in any case, a
      whitespace run up to `a`, digits up to `b`, the percent sign, a
      whitespace run up to `c` and the tail word in any case. */
  predicate TaxNoteAt(s: string, a: nat, b: nat, c: nat) {
    5 <= a < b < c && c + 5 <= |s|
    && HeadAt(s) && AllSpace(s[5..a]) && AllDigits(s[a..b])
    && s[b] == '%' && AllSpace(s[b + 1..c]) && TailAt(s[c..])
  }

  /** Any text shaped like the pattern, with any case of the two words and
      any whitespace runs and digits, is matched whole, whatever follows. */
  lemma TaxMatchComplete(s: string, a: nat, b: nat, c: nat)
    requires TaxNoteAt(s, a, b, c)
    ensures TaxMatch(s) == Some(c + 5)
  {
    assert s[a..b][0] == s[a];
    PrintableIsNotSpace(s[a]);
    SpaceRunAt(s, 5, a);
    DigitRunAt(s, a, b);
    PercentAt(s, a, b);
    assert s[c..][0] == s[c];
    FoldedIsNotSpace(s[c], TaxTail[0]);
    SpaceRunAt(s, b + 1, c);
    TailFoundAt(s, b + 1, c);
    TaxMatchSteps(s, a, b, c + 5);
  }

  /** Whatever the matcher matches is shaped like the pattern: the converse
      of `TaxMatchComplete`. */
  lemma TaxMatchSound(s: string) returns (a: nat, b: nat)
    requires TaxMatch(s).Some?
    ensures TaxNoteAt(s, a, b, TaxMatch(s).value - 5)
  {
    assert HeadAt(s);
    a := 5 + SpaceRun(s[5..]);
    assert PercentAfterDigits(s, a).Some?;
    var after := PercentAfterDigits(s, a).value;
    b := after - 1;
    var c := after + SpaceRun(s[after..]);
    TaxMatchParts(s, a, after, c);
    assert TaxMatch(s).value - 5 == c;
    SpaceRunPrefix(s, 5, a);
    DigitRunPrefix(s, a, b);
    SpaceRunPrefix(s, after, c);
    assert TaxNoteAt(s, a, b, c);
  }

  /** How a match decomposes: the head word, the position after the percent
      sign, and the tail word. */
  lemma TaxMatchParts(s: string, a: nat, after: nat, c: nat)
    requires TaxMatch(s).Some?
    requires a == 5 + SpaceRun(s[5..])
    requires a <= |s| && PercentAfterDigits(s, a).Some? && after == PercentAfterDigits(s, a).value
    requires c == after + SpaceRun(s[after..])
    ensures HeadAt(s) && TailAt(s[c..]) && TaxMatch(s) == Some(c + 5)
    ensures s[after - 1] == '%' && after == a + DigitRun(s[a..]) + 1
  {
    assert HeadAt(s);
    assert TaxMatch(s) == TailAfterSpace(s, after) by {
      assert PercentAfterDigits(s, 5 + SpaceRun(s[5..])) == Some(after);
    }
    TailParts(s, after, c);
    PercentParts(s, a, after);
  }

  lemma TailParts(s: string, after: nat, c: nat)
    requires after <= |s| && TailAfterSpace(s, after).Some?
    requires c == after + SpaceRun(s[after..])
    ensures TailAt(s[c..]) && TailAfterSpace(s, after) == Some(c + 5)
  {
  }

  lemma PercentParts(s: string, a: nat, after: nat)
    requires a <= |s| && PercentAfterDigits(s, a) == Some(after)
    ensures s[after - 1] == '%' && after == a + DigitRun(s[a..]) + 1
  {
  }

  /** The measured whitespace run from `i` is whitespace. */
  lemma SpaceRunPrefix(s: string, i: nat, j: nat)
    requires i <= |s| && j == i + SpaceRun(s[i..])
    ensures j <= |s| && AllSpace(s[i..j])
  {
    SpaceRunSpans(s[i..]);
    assert s[i..j] == s[i..][..j - i];
  }

  /** The measured digit run from `i` is digits. */
  lemma DigitRunPrefix(s: string, i: nat, j: nat)
    requires i <= |s| && j == i + DigitRun(s[i..])
    ensures j <= |s| && AllDigits(s[i..j])
  {
    DigitRunSpans(s[i..]);
    assert s[i..j] == s[i..][..j - i];
  }

  lemma TaxMatchSteps(s: string, a: nat, b: nat, c: nat)
    requires HeadAt(s) && 5 + SpaceRun(s[5..]) == a
    requires a <= |s| && PercentAfterDigits(s, a) == Some(b + 1)
    requires TailAfterSpace(s, b + 1) == Some(c)
    ensures TaxMatch(s) == Some(c)
  {
  }

  lemma PercentAt(s: string, a: nat, b: nat)
    requires a < b < |s| && DigitRun(s[a..]) == b - a && s[b] == '%'
    ensures PercentAfterDigits(s, a) == Some(b + 1)
  {
  }

  lemma TailFoundAt(s: string, b: nat, c: nat)
    requires b <= c <= |s| && b + SpaceRun(s[b..]) == c && TailAt(s[c..])
    ensures TailAfterSpace(s, b) == Some(c + 5)
  {
  }

  /** The whitespace run the matcher measures from `i` ends at `j`. */
  lemma SpaceRunAt(s: string, i: nat, j: nat)
    requires i <= j <= |s| && AllSpace(s[i..j])
    requires j == |s| || !IsSpace(s[j])
    ensures i + SpaceRun(s[i..]) == j
  {
    assert s[i..][..j - i] == s[i..j];
    assert j == |s| || s[i..][j - i] == s[j];
    SpaceRunExact(s[i..], j - i);
  }

  /** The digit run the matcher measures from `i` ends at `j`. */
  lemma DigitRunAt(s: string, i: nat, j: nat)
    requires i <= j <= |s| && AllDigits(s[i..j])
    requires j == |s| || !IsDigit(s[j])
    ensures DigitRun(s[i..]) == j - i
  {
    assert s[i..][..j - i] == s[i..j];
    assert j == |s| || s[i..][j - i] == s[j];
    DigitRunExact(s[i..], j - i);
  }

  /** A run measured by hand is the run the matcher measures. */
  lemma {:induction false} SpaceRunExact(t: string, k: nat)
    requires k <= |t| && AllSpace(t[..k])
    requires k == |t| || !IsSpace(t[k])
    ensures SpaceRun(t) == k
    decreases k
  {
    if k > 0 {
      assert t[1..][..k - 1] == t[..k][1..];
      assert k - 1 == |t[1..]| || t[1..][k - 1] == t[k];
      SpaceRunExact(t[1..], k - 1);
    }
  }

  lemma {:induction false} DigitRunExact(t: string, k: nat)
    requires k <= |t| && AllDigits(t[..k])
    requires k == |t| || !IsDigit(t[k])
    ensures DigitRun(t) == k
    decreases k
  {
    if k > 0 {
      assert t[1..][..k - 1] == t[..k][1..];
      assert k - 1 == |t[1..]| || t[1..][k - 1] == t[k];
      DigitRunExact(t[1..], k - 1);
    }
  }



  /** Tax-note removal changes a text exactly when a tax note occurs in it. */
  lemma RemoveTaxUnchanged(s: string)
    ensures RemoveTax(s) == s <==> NoTaxNote(s)
  {
    if NoTaxNote(s) {
      RemoveTaxOfClean(s);
    } else {
      var j :| 0 <= j <= |s| && TaxMatch(s[j..]).Some?;
      RemoveTaxShrinks(s, j);
    }
  }

  lemma {:induction false} RemoveTaxOfClean(s: string)
    requires NoTaxNote(s)
    ensures RemoveTax(s) == s
    decreases |s|
  {
    assert TaxMatch(s[0..]).None?;
    assert s[0..] == s;
    if s != [] {
      assert NoTaxNote(s[1..]) by {
        forall j | 0 <= j <= |s[1..]| ensures TaxMatch(s[1..][j..]).None? {
          assert s[1..][j..] == s[j + 1..];
        }
      }
      RemoveTaxOfClean(s[1..]);
      assert s == [s[0]] + s[1..];
    }
  }

  lemma {:induction false} RemoveTaxShrinks(s: string, j: nat)
    requires j <= |s| && TaxMatch(s[j..]).Some?
    ensures |RemoveTax(s)| < |s|
    decreases |s|
  {
    if TaxMatch(s).None? {
      assert j != 0 by {
        assert s[0..] == s;
      }
      assert s[1..][j - 1..] == s[j..];
      RemoveTaxShrinks(s[1..], j - 1);
    }
  }

  /** A tax note at the front disappears without a trace. */
  lemma {:induction false} RemoveTaxDropsNote(s: string, a: nat, b: nat, c: nat)
    requires TaxNoteAt(s, a, b, c)
    ensures RemoveTax(s) == RemoveTax(s[c + 5..])
  {
    TaxMatchComplete(s, a, b, c);
    RemoveTaxAtMatch(s, c + 5);
  }

  lemma RemoveTaxAtMatch(s: string, n: nat)
    requires TaxMatch(s) == Some(n)
    ensures RemoveTax(s) == RemoveTax(s[n..])
  {
  }

  /** Text in which no tax note starts is kept as it is, whatever follows it.
      With `RemoveTaxDropsNote` this determines `RemoveTax` on every input:
      the text up to the first note is kept, the note is dropped, and the
      scan goes on after it. */
  lemma {:induction false} RemoveTaxKeepsPrefix(x: string, s: string)
    requires forall j | 0 <= j < |x| :: TaxMatch((x + s)[j..]).None?
    ensures RemoveTax(x + s) == x + RemoveTax(s)
    decreases |x|
  {
    if x == [] {
      assert x + s == s;
    } else {
      var xs := x + s;
      assert xs[0..] == xs && xs[0] == x[0];
      assert xs[1..] == x[1..] + s;
      forall j | 0 <= j < |x[1..]| ensures TaxMatch((x[1..] + s)[j..]).None? {
        assert (x[1..] + s)[j..] == xs[j + 1..];
      }
      RemoveTaxKeepsPrefix(x[1..], s);
      ConsSplit(x, RemoveTax(s));
    }
  }

  /** A price followed by a tax note: normalisation leaves the stripped price. */
  lemma NormaliseDropsTrailingNote(text: string, x: string, n: string, a: nat, b: nat, c: nat)
    requires text != [] && CollapseSpaces(text) == x + n
    requires TaxNoteAt(n, a, b, c) && |n| == c + 5
    requires forall j | 0 <= j < |x| :: TaxMatch((x + n)[j..]).None?
    ensures NormalisePrice(text) == Trim(x)
  {
    RemoveTaxKeepsPrefix(x, n);
    RemoveTaxDropsNote(n, a, b, c);
    assert n[c + 5..] == [];
    assert x + [] == x;
  }

  const SamplePrice: string := "1.958,37 \U{20AC} "
  const SampleNote: string := "exkl. 19% MwSt."

  /** The usual price text of a variant: the tax note after the amount is
      removed and the amount with its euro sign remains. */
  lemma NormaliseTypicalPrice()
    ensures NormalisePrice(SamplePrice + SampleNote) == "1.958,37 \U{20AC}"
  {
    SampleCollapsed();
    SampleNoteMatches();
    SamplePriceHasNoNote();
    NormaliseDropsTrailingNote(SamplePrice + SampleNote, SamplePrice, SampleNote, 6, 8, 10);
    SamplePriceTrim();
  }

  lemma SampleCollapsed()
    ensures CollapseSpaces(SamplePrice + SampleNote) == SamplePrice + SampleNote
  {
    var text := SamplePrice + SampleNote;
    BlankIsSpace();
    EuroIsNotSpace();
    forall i | 0 <= i < |text| ensures text[i] == ' ' || !IsSpace(text[i]) {
      if text[i] != ' ' && text[i] != Euro {
        PrintableIsNotSpace(text[i]);
      }
    }
    CollapseOfCollapsed(text);
  }

  lemma SampleNoteMatches()
    ensures TaxNoteAt(SampleNote, 6, 8, 10) && |SampleNote| == 15
  {
    var n := SampleNote;
    BlankIsSpace();
    assert AllSpace(n[5..6]) && AllSpace(n[9..10]);
    assert HeadAt(n) && TailAt(n[10..]);
  }

  lemma SamplePriceHasNoNote()
    ensures forall j | 0 <= j < |SamplePrice| :: TaxMatch((SamplePrice + SampleNote)[j..]).None?
  {
    var text := SamplePrice + SampleNote;
    forall j | 0 <= j < |SamplePrice| ensures TaxMatch(text[j..]).None? {
      assert text[j..][0] == SamplePrice[j];
      assert !FoldEq(text[j..][0], TaxHead[0]);
    }
  }

  lemma SamplePriceTrim()
    ensures Trim(SamplePrice) == "1.958,37 \U{20AC}"
  {
    var x := SamplePrice;
    var y := x[..10];
    assert y == "1.958,37 \U{20AC}";
    PrintableIsNotSpace(y[0]);
    EuroIsNotSpace();
    BlankIsSpace();
    assert IsStripOf(x, y) by {
      assert y == x[0..0 + |y|] && AllSpace(x[..0]) && AllSpace(x[0 + |y|..]);
    }
    TrimIsStrip(x);
    StripUnique(x, Trim(x), y);
  }

  /** A price without tax note only has its whitespace runs collapsed. */
  lemma NormaliseWithoutTax(text: string)
    requires IsTrimmed(text) && text != []
    requires NoTaxNote(CollapseSpaces(text))
    ensures NormalisePrice(text) == CollapseSpaces(text)
  {
    RemoveTaxUnchanged(CollapseSpaces(text));
  }

  /** The search finds the word after the first occurrence of the label, or
      nothing when only whitespace follows it. No later occurrence is ever
      needed: the label cannot overlap itself, and after an occurrence
      followed by whitespace only there is no room for another. */
  lemma {:induction false} SearchSerialFirstLabel(s: string)
    ensures SearchSerial(s) ==
      match IndexOf(s, Label)
      case None => None
      case Some(i) =>
        var w := Word(TrimLeft(s[i + |Label|..]));
        if w == [] then None else Some(w)
    decreases |s|
  {
    if StartsWith(s, Label) {
      assert IndexOf(s, Label) == Some(0);
      var w := Word(TrimLeft(s[|Label|..]));
      if w == [] {
        NoLabelAfter(s);
        SearchSerialNone(s[1..]);
      }
    } else if s != [] {
      SearchSerialFirstLabel(s[1..]);
      var r := IndexOf(s[1..], Label);
      if r.Some? {
        assert OccursAt(s, Label, r.value + 1) by {
          assert s[r.value + 1..] == s[1..][r.value..];
        }
        assert IndexOf(s, Label) == Some(r.value + 1);
        assert s[r.value + 1 + |Label|..] == s[1..][r.value + |Label|..];
      } else {
        assert IndexOf(s, Label).None?;
      }
    }
  }

  /** After a label followed by whitespace only, `s[1..]` holds no label. */
  lemma NoLabelAfter(s: string)
    requires StartsWith(s, Label)
    requires Word(TrimLeft(s[|Label|..])) == []
    ensures IndexOf(s[1..], Label).None?
  {
    var rest := s[|Label|..];
    PrintableIsNotSpace('A');
    assert Label[0] == 'A';
    TrimLeftSuffix(rest);
    assert TrimLeft(rest) == [];
    assert AllSpace(rest);
    forall j | 0 <= j <= |s[1..]| ensures !OccursAt(s[1..], Label, j) {
      if j + |Label| <= |s[1..]| {
        var k := j + 1;
        if k < |Label| {
          assert s[k] == Label[k];
          assert s[1..][j..][0] == s[k];
        } else {
          assert s[1..][j..][0] == rest[k - |Label|];
        }
      }
    }
  }

  lemma {:induction false} SearchSerialNone(s: string)
    requires IndexOf(s, Label).None?
    ensures SearchSerial(s).None?
    decreases |s|
  {
    assert !OccursAt(s, Label, 0);
    assert s[0..] == s;
    if s != [] {
      assert IndexOf(s[1..], Label).None? by {
        forall j | 0 <= j <= |s[1..]| ensures !OccursAt(s[1..], Label, j) {
          assert s[1..][j..] == s[j + 1..];
          assert !OccursAt(s, Label, j + 1);
        }
      }
      SearchSerialNone(s[1..]);
    }
  }
}

=== FILE: layout.dfy ===
/** The page-level logic of `scrape_product_variants`: where the base name
    comes from, the order in which the page layouts are tried, and the
    extraction, deduplication and cleanup steps. The rendered page is
    abstracted to the containers the code looks up and the variant blocks
    found in each of them. */
module Layout {
  import opened Wrappers
  import opened Text
  import opened Variants
  import opened Cleanup
  import opened Extract

  /** The `h1.TypUeber`: its `content` attribute, when present, and its text. */
  datatype Heading = Heading(content: Option<string>, element: Element)

  /** A `div.ProdgrupDesktop`: the `CarArtikel` blocks inside its first
      `div.ProdukteCar`, when it has one, and all of its own `CarArtikel` blocks. */
  datatype ProdgrupDesktop = ProdgrupDesktop(produkteCar: Option<seq<CarArtikel>>, items: seq<CarArtikel>)

  /** The first `div.TabZel2`: its first `ProdgrupDesktop`, when it has one,
      and all of its `CarArtikel` blocks. */
  datatype TabZel2 = TabZel2(desktop: Option<ProdgrupDesktop>, items: seq<CarArtikel>)

  /** A `div.TabZeile.panel.panel-default` accordion panel: its `div.content`
      blocks and its `CarArtikel` blocks, each in document order. */
  datatype Panel = Panel(contents: seq<ContentDiv>, items: seq<CarArtikel>)

  /** A rendered product page. `items` holds every `CarArtikel` of the page. */
  datatype Page = Page(heading: Option<Heading>, tabZel2: Option<TabZel2>, panels: seq<Panel>, items: seq<CarArtikel>)

  const Shown: string := "display: block"

  /** The base product name: the stripped `content` attribute of the heading,
      or its stripped text when that is empty; "" without a heading. */
  function BaseName(h: Option<Heading>): (r: string)
    ensures IsTrimmed(r)
    ensures h.None? ==> r == []
    ensures h.Some? && Trim(h.value.content.GetOr("")) != [] ==> r == Trim(h.value.content.value)
    ensures h.Some? && Trim(h.value.content.GetOr("")) == [] ==> r == Stripped(h.value.element)
  {
    match h
    case None => ""
    case Some(heading) =>
      var fromAttribute := Trim(heading.content.GetOr(""));
      if fromAttribute != [] then fromAttribute else Stripped(heading.element)
  }

  /** A content div is read only when its style attribute says it is shown. */
  predicate IsShown(c: ContentDiv) {
    c.style.Some? && Contains(c.style.value, Shown)
  }

  /** The shown content divs, in document order. */
  function ShownContents(cs: seq<ContentDiv>): (r: seq<ContentDiv>)
    ensures |r| <= |cs|
    ensures forall i | 0 <= i < |r| :: IsShown(r[i]) && r[i] in cs
    ensures forall c | c in cs && IsShown(c) :: c in r
    ensures (forall i | 0 <= i < |cs| :: IsShown(cs[i])) ==> r == cs
    ensures (forall i | 0 <= i < |cs| :: !IsShown(cs[i])) ==> r == []
  {
    if cs == [] then []
    else
      assert cs == [cs[0]] + cs[1..];
      assert forall i | 1 <= i < |cs| :: cs[i] == cs[1..][i - 1];
      (if IsShown(cs[0]) then [cs[0]] else []) + ShownContents(cs[1..])
  }

  /** The `CarArtikel` blocks `extract_variants_from_tabzel2` reads:
      preferably those of `ProdukteCar`, then those of `ProdgrupDesktop`,
      then all of `TabZel2`. */
  function TabZel2Items(t: TabZel2): (r: seq<CarArtikel>)
    ensures t.desktop.Some? && t.desktop.value.produkteCar.Some? ==> r == t.desktop.value.produkteCar.value
    ensures t.desktop.Some? && t.desktop.value.produkteCar.None? ==> r == t.desktop.value.items
    ensures t.desktop.None? ==> r == t.items
  {
    match t.desktop
    case Some(d) => d.produkteCar.GetOr(d.items)
    case None => t.items
  }

  /** One record per block, in order, with the given extraction path. */
  function ExtractAll(items: seq<CarArtikel>, base: string, isAccordion: bool): (r: seq<Variant>)
    ensures |r| == |items|
    ensures forall i | 0 <= i < |items| :: r[i] == ExtractVariantData(items[i], base, isAccordion)
  {
    seq(|items|, i requires 0 <= i < |items| => ExtractVariantData(items[i], base, isAccordion))
  }

  /** `extract_variants_from_tabzel2`. */
  function TabZel2Variants(t: TabZel2, base: string): (r: seq<Variant>)
    ensures |r| == |TabZel2Items(t)|
    ensures t.desktop.Some? && t.desktop.value.produkteCar.Some? ==>
      r == ExtractAll(t.desktop.value.produkteCar.value, base, false)
    ensures t.desktop.Some? && t.desktop.value.produkteCar.None? ==> r == ExtractAll(t.desktop.value.items, base, false)
    ensures t.desktop.None? ==> r == ExtractAll(t.items, base, false)
  {
    ExtractAll(TabZel2Items(t), base, false)
  }

  /** The records of one panel: its shown content divs first (every one of
      them gives a record, since the record built is never empty), then its
      `CarArtikel` blocks read on the accordion path. */
  function PanelVariants(p: Panel, base: string): (r: seq<Variant>)
    ensures |r| == |ShownContents(p.contents)| + |p.items|
    ensures forall i | 0 <= i < |ShownContents(p.contents)| ::
      r[i] == ExtractVariantDataFromContent(ShownContents(p.contents)[i], base)
    ensures r[|ShownContents(p.contents)|..] == ExtractAll(p.items, base, true)
  {
    var shown := ShownContents(p.contents);
    seq(|shown|, i requires 0 <= i < |shown| => ExtractVariantDataFromContent(shown[i], base))
    + ExtractAll(p.items, base, true)
  }

  /** `extract_variants_from_accordions`: the panels' records, panel by panel. */
  function AccordionVariants(panels: seq<Panel>, base: string): (r: seq<Variant>)
  {
    if panels == [] then [] else PanelVariants(panels[0], base) + AccordionVariants(panels[1..], base)
  }

  /** The records gathered before deduplication: the TabZel2 records followed
      by the accordion records; when both are empty, every `CarArtikel` of
      the page read on the non-accordion path. */
  function CollectVariants(page: Page, base: string): seq<Variant> {
    var fromTab := match page.tabZel2
      case Some(t) => TabZel2Variants(t, base)
      case None => [];
    var structured := fromTab + AccordionVariants(page.panels, base);
    if structured != [] then structured else ExtractAll(page.items, base, false)
  }

  /** `scrape_product_variants` on a rendered page, or on a page that could
      not be rendered (`None`), for which the caught exception yields []. */
  method ScrapeProductVariants(page: Option<Page>) returns (r: seq<Variant>)
    ensures page.None? ==> r == []
    ensures page.Some? ==>
      r == CleanProductData(Dedup(CollectVariants(page.value, BaseName(page.value.heading))))
    ensures SerialsDistinct(r)
    ensures page.Some? ==> Serials(r) == Serials(CollectVariants(page.value, BaseName(page.value.heading)))
    ensures page.Some? ==> |r| <= |CollectVariants(page.value, BaseName(page.value.heading))|
  {
    if page.None? {
      return [];
    }
    var p := page.value;
    var base := BaseName(p.heading);
    var all := CollectVariants(p, base);
    var unique := DedupBySerial(all);
    r := CleanProductData(unique);
    CleanupKeepsSerials(unique);
  }

  // ---------------------------------------------------------------------
  // Lemmas
  // ---------------------------------------------------------------------

  /** The shown content divs of consecutive runs are concatenated: with the
      two cases of one div in `ShownContents`' contract, this says the shown
      divs are kept in document order. */
  lemma {:induction false} ShownContentsAppend(xs: seq<ContentDiv>, ys: seq<ContentDiv>)
    ensures ShownContents(xs + ys) == ShownContents(xs) + ShownContents(ys)
    decreases |xs|
  {
    if xs == [] {
      assert xs + ys == ys;
    } else {
      assert (xs + ys)[0] == xs[0];
      assert (xs + ys)[1..] == xs[1..] + ys;
      ShownContentsAppend(xs[1..], ys);
    }
  }

  /** The accordion records of consecutive panel runs are the concatenation
      of the runs' records. */
  lemma {:induction false} AccordionAppend(ps: seq<Panel>, qs: seq<Panel>, base: string)
    ensures AccordionVariants(ps + qs, base) == AccordionVariants(ps, base) + AccordionVariants(qs, base)
    decreases |ps|
  {
    if ps == [] {
      assert ps + qs == qs;
    } else {
      assert (ps + qs)[1..] == ps[1..] + qs;
      AccordionAppend(ps[1..], qs, base);
    }
  }

  /** Every shown content div and every `CarArtikel` block of every panel
      gives exactly one record. */
  lemma {:induction false} AccordionCount(panels: seq<Panel>, base: string)
    ensures |AccordionVariants(panels, base)| == PanelBlocks(panels)
    decreases |panels|
  {
    if panels != [] {
      AccordionCount(panels[1..], base);
    }
  }

  /** The number of blocks that produce a record in a run of panels. */
  function PanelBlocks(panels: seq<Panel>): nat {
    if panels == [] then 0
    else |ShownContents(panels[0].contents)| + |panels[0].items| + PanelBlocks(panels[1..])
  }

  /** The page-wide fallback is not consulted as soon as either structured
      layout yields a record: the page's other blocks do not matter then. */
  lemma FallbackIgnored(page: Page, others: seq<CarArtikel>, base: string)
    requires (page.tabZel2.Some? && TabZel2Items(page.tabZel2.value) != []) || PanelBlocks(page.panels) > 0
    ensures CollectVariants(page.(items := others), base) == CollectVariants(page, base)
  {
    AccordionCount(page.panels, base);
  }

  /** A page with neither TabZel2 nor accordion records yields exactly one
      record per `CarArtikel` anywhere on the page. */
  lemma FallbackUsed(page: Page, base: string)
    requires page.tabZel2.None? || TabZel2Items(page.tabZel2.value) == []
    requires PanelBlocks(page.panels) == 0
    ensures CollectVariants(page, base) == ExtractAll(page.items, base, false)
  {
    AccordionCount(page.panels, base);
  }

  /** With both structured layouts present, the TabZel2 records come first
      and the accordion records follow. */
  lemma TabZel2First(page: Page, base: string)
    requires page.tabZel2.Some?
    requires TabZel2Items(page.tabZel2.value) != [] || PanelBlocks(page.panels) > 0
    ensures var tab := TabZel2Variants(page.tabZel2.value, base);
      var acc := AccordionVariants(page.panels, base);
      CollectVariants(page, base)[..|tab|] == tab && CollectVariants(page, base)[|tab|..] == acc
  {
    AccordionCount(page.panels, base);
  }

  /** A page with no variant blocks at all yields no records. */
  lemma EmptyPage(page: Page)
    requires page.tabZel2.None? && page.panels == [] && page.items == []
    ensures CollectVariants(page, BaseName(page.heading)) == []
  {
  }
}

=== FILE: listing.dfy ===
/** What is read from one product listing page: the links to product pages,
    the pagination links, and the rule that stops the lazy-loading scroll
    loop. Two readers exist: product_links.py's, on the rendered page, and
    main.py's, on the raw HTTP response. `urljoin` is a parameter `join`,
    since it is a library call; the parsed page is abstracted to its
    anchors and their ancestor chains. */
module Listing {
  import opened Wrappers
  import opened Text

  /** An element on the path from an anchor to the document root. */
  datatype Node = Node(name: string, classes: seq<string>)

  /** An `a` element: its `href` attribute, when present, and its ancestors,
      parent first, up to the document root. */
  datatype Anchor = Anchor(href: Option<string>, ancestors: seq<Node>)

  /** A listing page. `anchors` holds every `a` of the page; `products` the
      anchors inside the first `div#products` and `pagination` those inside
      the first `.floatright` element, when the page has one. */
  datatype ListingPage = ListingPage(anchors: seq<Anchor>, products: Option<seq<Anchor>>, pagination: Option<seq<Anchor>>)

  /** The links read from a listing page: product URLs and pagination URLs. */
  datatype PageLinks = PageLinks(products: set<string>, pages: seq<string>)

  /** The outcome of main.py's request: the status code and, when it is 200,
      the page. */
  datatype Response = Response(status: int, page: ListingPage)

  const ProductSuffix: string := "-Typen"
  const RecommendationClass: string := "productkundenintere"

  /** An ancestor that marks the recommendations block. */
  predicate IsRecommendation(n: Node) {
    n.name == "div" && RecommendationClass in n.classes
  }

  /** The anchor sits somewhere inside a recommendations block. */
  predicate InRecommendations(a: Anchor) {
    exists k | 0 <= k < |a.ancestors| :: IsRecommendation(a.ancestors[k])
  }

  /** The walk up the parent chain in `fetch_page_links`. */
  method FindRecommendation(a: Anchor) returns (found: bool)
    ensures found <==> InRecommendations(a)
  {
    found := false;
    var k := 0;
    while k < |a.ancestors|
      invariant 0 <= k <= |a.ancestors|
      invariant forall j | 0 <= j < k :: !IsRecommendation(a.ancestors[j])
    {
      var parent := a.ancestors[k];
      if parent.name == "div" && RecommendationClass in parent.classes {
        found := true;
        return;
      }
      k := k + 1;
    }
  }

  /** A product link on the rendered page: it has an href ending in
      `-Typen` and lies outside every recommendations block. */
  predicate IsProductAnchor(a: Anchor) {
    a.href.Some? && EndsWith(a.href.value, ProductSuffix) && !InRecommendations(a)
  }

  /** The product URLs of the rendered page: the resolved hrefs of the
      product links inside `div#products`; none without that container. */
  function ProductLinkSet(url: string, page: ListingPage, join: (string, string) -> string): set<string> {
    match page.products
    case None => {}
    case Some(anchors) => set a | a in anchors && IsProductAnchor(a) :: join(url, a.href.value)
  }

  /** The product-link loop of product_links.py's `fetch_page_links`. */
  method ProductLinks(url: string, page: ListingPage, join: (string, string) -> string) returns (links: set<string>)
    ensures links == ProductLinkSet(url, page, join)
  {
    links := {};
    if page.products.None? {
      return;
    }
    var anchors := page.products.value;
    for i := 0 to |anchors|
      invariant links == set a | a in anchors[..i] && IsProductAnchor(a) :: join(url, a.href.value)
    {
      var a := anchors[i];
      if a.href.Some? && EndsWith(a.href.value, ProductSuffix) {
        var inside := FindRecommendation(a);
        if !inside {
          links := links + {join(url, a.href.value)};
        }
      }
      assert anchors[..i + 1] == anchors[..i] + [a];
    }
    assert anchors[..|anchors|] == anchors;
  }

  /** The hrefs present among `anchors`, resolved, in document order and
      with repetitions. */
  function ResolvedHrefs(url: string, anchors: seq<Anchor>, join: (string, string) -> string): (r: seq<string>)
    ensures |r| <= |anchors|
    ensures forall i | 0 <= i < |anchors| :: anchors[i].href.Some? ==> join(url, anchors[i].href.value) in r
    ensures (forall i | 0 <= i < |anchors| :: anchors[i].href.None?) ==> r == []
    ensures (forall i | 0 <= i < |anchors| :: anchors[i].href.Some?) ==>
      |r| == |anchors| && forall i | 0 <= i < |anchors| :: r[i] == join(url, anchors[i].href.value)
  {
    if anchors == [] then []
    else
      var head := if anchors[0].href.Some? then [join(url, anchors[0].href.value)] else [];
      var rest := ResolvedHrefs(url, anchors[1..], join);
      assert forall i | 1 <= i < |anchors| :: anchors[i] == anchors[1..][i - 1];
      head + rest
  }

  /** The pagination URLs: the resolved hrefs inside the first `.floatright`
      element, or none without one. */
  function PaginationUrls(url: string, page: ListingPage, join: (string, string) -> string): (r: seq<string>)
    ensures page.pagination.None? ==> r == []
    ensures page.pagination.Some? ==> r == ResolvedHrefs(url, page.pagination.value, join)
  {
    match page.pagination
    case None => []
    case Some(anchors) => ResolvedHrefs(url, anchors, join)
  }

  /** product_links.py's `fetch_page_links` on a rendered page. */
  method FetchPageLinks(url: string, page: ListingPage, join: (string, string) -> string) returns (r: PageLinks)
    ensures r.products == ProductLinkSet(url, page, join)
    ensures r.pages == PaginationUrls(url, page, join)
  {
    var products := ProductLinks(url, page, join);
    r := PageLinks(products, PaginationUrls(url, page, join));
  }

  /** main.py's `fetch_page_links`: every anchor of the page whose href ends
      in `-Typen`, wherever it is. A status other than 200 gives `None`,
      standing for the empty set the function returns in place of a pair. */
  function FetchPageLinksMain(url: string, resp: Response, join: (string, string) -> string): (r: Option<PageLinks>)
    ensures r.None? <==> resp.status != 200
    ensures r.Some? ==> r.value.pages == PaginationUrls(url, resp.page, join)
    ensures r.Some? ==> forall a | a in resp.page.anchors && a.href.Some? && EndsWith(a.href.value, ProductSuffix) ::
      join(url, a.href.value) in r.value.products
    ensures r.Some? ==> forall x | x in r.value.products :: exists a | a in resp.page.anchors ::
      a.href.Some? && EndsWith(a.href.value, ProductSuffix) && x == join(url, a.href.value)
  {
    if resp.status != 200 then None
    else
      var products := set a | a in resp.page.anchors && a.href.Some? && EndsWith(a.href.value, ProductSuffix)
        :: join(url, a.href.value);
      Some(PageLinks(products, PaginationUrls(url, resp.page, join)))
  }

  // ---------------------------------------------------------------------
  // The scroll loop
  // ---------------------------------------------------------------------

  const DefaultMaxIterations: nat := 40

  /** The height recorded before round `i`: 0 before the first round. */
  function Previous(height: nat -> int, i: nat): int {
    if i == 0 then 0 else height(i - 1)
  }

  /** Round `i` read the same height as the round before it. */
  predicate Settled(height: nat -> int, i: nat) {
    height(i) == Previous(height, i)
  }

  /** `_scroll_to_bottom`: `height(i)` is the document height read after the
      scroll of round `i`. Returns the number of scrolls performed: the loop
      stops at the first round whose height equals the previous one, or after
      `maxIterations` rounds. */
  method ScrollToBottom(height: nat -> int, maxIterations: nat) returns (rounds: nat)
    ensures rounds <= maxIterations
    ensures forall i: nat | i < rounds - 1 :: !Settled(height, i)
    ensures rounds < maxIterations ==> rounds > 0 && Settled(height, rounds - 1)
    ensures rounds == 0 <==> maxIterations == 0
  {
    var lastHeight := 0;
    rounds := 0;
    while rounds < maxIterations
      invariant rounds <= maxIterations
      invariant lastHeight == Previous(height, rounds)
      invariant forall i: nat | i < rounds :: !Settled(height, i)
    {
      var newHeight := height(rounds);
      if newHeight == lastHeight {
        rounds := rounds + 1;
        return;
      }
      rounds := rounds + 1;
      lastHeight := newHeight;
    }
  }

  /** The call `_scroll_to_bottom(page)` in `fetch_page_links`, with the
      default bound of 40 rounds: at least one scroll, at most 40, and fewer
      than 40 only when the last round read an unchanged height. */
  method ScrollWithDefault(height: nat -> int) returns (rounds: nat)
    ensures 1 <= rounds <= 40
    ensures forall i: nat | i < rounds - 1 :: !Settled(height, i)
    ensures rounds < 40 ==> Settled(height, rounds - 1)
  {
    rounds := ScrollToBottom(height, DefaultMaxIterations);
  }

  // ---------------------------------------------------------------------
  // Lemmas
  // ---------------------------------------------------------------------

  /** The pagination URLs of consecutive anchor runs are concatenated, so
      document order is kept. */
  lemma {:induction false} ResolvedHrefsAppend(url: string, xs: seq<Anchor>, ys: seq<Anchor>, join: (string, string) -> string)
    ensures ResolvedHrefs(url, xs + ys, join) == ResolvedHrefs(url, xs, join) + ResolvedHrefs(url, ys, join)
    decreases |xs|
  {
    if xs == [] {
      assert xs + ys == ys;
    } else {
      assert (xs + ys)[0] == xs[0];
      assert (xs + ys)[1..] == xs[1..] + ys;
      ResolvedHrefsAppend(url, xs[1..], ys, join);
    }
  }

  /** Every resolved URL comes from an anchor with an href. */
  lemma {:induction false} ResolvedHrefsFrom(url: string, anchors: seq<Anchor>, join: (string, string) -> string)
    ensures forall x | x in ResolvedHrefs(url, anchors, join) ::
      exists i | 0 <= i < |anchors| :: anchors[i].href.Some? && x == join(url, anchors[i].href.value)
    decreases |anchors|
  {
    if anchors != [] {
      ResolvedHrefsFrom(url, anchors[1..], join);
      assert forall i | 1 <= i < |anchors| :: anchors[i] == anchors[1..][i - 1];
    }
  }

  /** Read from one and the same document, every product URL the
      rendered-page reader finds, main.py's reader finds too, when the
      products container's anchors are anchors of the page. */
  lemma RenderedLinksAmongAll(url: string, page: ListingPage, join: (string, string) -> string)
    requires page.products.Some? ==> forall a | a in page.products.value :: a in page.anchors
    ensures FetchPageLinksMain(url, Response(200, page), join).Some?
    ensures ProductLinkSet(url, page, join) <= FetchPageLinksMain(url, Response(200, page), join).value.products
  {
  }

  /** An anchor inside a recommendations block never yields a product link
      on the rendered page, even when it lies inside `div#products`. */
  lemma RecommendationsExcluded(url: string, page: ListingPage, join: (string, string) -> string, a: Anchor)
    requires page.products.Some? && a in page.products.value
    requires a.href.Some? && EndsWith(a.href.value, ProductSuffix)
    requires forall b | b in page.products.value && b != a :: b.href.Some? ==> join(url, b.href.value) != join(url, a.href.value)
    ensures join(url, a.href.value) in ProductLinkSet(url, page, join) <==> !InRecommendations(a)
  {
  }
}

=== FILE: order.dfy ===
/** Python's ordering of `str` values (lexicographic by code point) and the
    `sorted(...)` of a set of strings. */
module StringOrder {

  /** `a < b` on Python strings. */
  predicate Less(a: string, b: string) {
    if a == [] then b != []
    else b != [] && (a[0] < b[0] || (a[0] == b[0] && Less(a[1..], b[1..])))
  }

  /** Every element is smaller than every later one (so there are no duplicates). */
  predicate StrictlySorted(xs: seq<string>) {
    forall i, j | 0 <= i < j < |xs| :: Less(xs[i], xs[j])
  }

  function Elems(xs: seq<string>): set<string> {
    set x | x in xs
  }

  lemma {:induction false} LessIrreflexive(a: string)
    ensures !Less(a, a)
    decreases |a|
  {
    if a != [] {
      LessIrreflexive(a[1..]);
    }
  }

  lemma {:induction false} LessTransitive(a: string, b: string, c: string)
    requires Less(a, b) && Less(b, c)
    ensures Less(a, c)
    decreases |a|
  {
    if a != [] && a[0] == b[0] && b[0] == c[0] {
      LessTransitive(a[1..], b[1..], c[1..]);
    }
  }

  lemma {:induction false} LessTotal(a: string, b: string)
    ensures a == b || Less(a, b) || Less(b, a)
    decreases |a|
  {
    if a != [] && b != [] && a[0] == b[0] {
      LessTotal(a[1..], b[1..]);
      if a[1..] == b[1..] {
        assert a == [a[0]] + a[1..] && b == [b[0]] + b[1..];
      }
    }
  }

  /** Inserts `x` into a strictly sorted sequence, unless it is already there. */
  function Insert(x: string, xs: seq<string>): (r: seq<string>)
    requires StrictlySorted(xs)
    ensures StrictlySorted(r)
    ensures Elems(r) == Elems(xs) + {x}
  {
    if xs == [] then [x]
    else if x == xs[0] then xs
    else if Less(x, xs[0]) then
      assert forall j | 0 < j < |xs| :: Less(x, xs[j]) by {
        forall j | 0 < j < |xs| ensures Less(x, xs[j]) {
          LessTransitive(x, xs[0], xs[j]);
        }
      }
      [x] + xs
    else
      LessTotal(x, xs[0]);
      var rest := Insert(x, xs[1..]);
      assert Elems(xs) == {xs[0]} + Elems(xs[1..]);
      assert forall y | y in Elems(rest) :: Less(xs[0], y);
      assert forall j | 0 <= j < |rest| :: rest[j] in Elems(rest);
      [xs[0]] + rest
  }

  /** `sorted(s)` for a set of strings: ascending, without duplicates, holding
      exactly the elements of `s`. */
  method SortedList(s: set<string>) returns (xs: seq<string>)
    ensures StrictlySorted(xs)
    ensures Elems(xs) == s
  {
    xs := [];
    var rest := s;
    while rest != {}
      invariant StrictlySorted(xs)
      invariant Elems(xs) + rest == s
      decreases |rest|
    {
      var x :| x in rest;
      xs := Insert(x, xs);
      rest := rest - {x};
    }
  }
}

=== FILE: text.dfy ===
/** The Python string primitives the scraper relies on, over `seq<char>`:
    whitespace as `str.isspace` and the `\s` class of `re` see it, `strip`,
    `split()`, `" ".join`, `endswith`, `in`, `replace(p, "")` and
    `re.sub(r'\s+', ' ', s)`. */
module Text {
  import opened Wrappers

  /** Python's whitespace table (identical for `str.isspace`, `str.split()`,
      `str.strip()` and the `\s` class of a `str` pattern), as inclusive
      code-point ranges. */
  const SpaceRanges: seq<(int, int)> := [
    (9, 13), (28, 32), (0x85, 0x85), (0xA0, 0xA0), (0x1680, 0x1680), (0x2000, 0x200A),
    (0x2028, 0x2029), (0x202F, 0x202F), (0x205F, 0x205F), (0x3000, 0x3000)]

  predicate IsSpace(c: char) {
    InRanges(c as int, SpaceRanges)
  }

  /** `n` lies in one of the inclusive ranges `rs`. */
  predicate InRanges(n: int, rs: seq<(int, int)>) {
    rs != [] && (rs[0].0 <= n <= rs[0].1 || InRanges(n, rs[1..]))
  }

  /** A number outside every range is in none of them. */
  lemma {:induction false} OutsideRanges(n: int, rs: seq<(int, int)>)
    requires forall k | 0 <= k < |rs| :: !(rs[k].0 <= n <= rs[k].1)
    ensures !InRanges(n, rs)
    decreases |rs|
  {
    if rs != [] {
      assert forall k | 0 <= k < |rs[1..]| :: rs[1..][k] == rs[k + 1];
      OutsideRanges(n, rs[1..]);
    }
  }

  /** The blank is whitespace. */
  lemma BlankIsSpace()
    ensures IsSpace(' ')
  {
  }

  /** No character from `!` to U+0084 is whitespace: digits, letters and
      ASCII punctuation among them. */
  lemma PrintableIsNotSpace(c: char)
    requires '!' <= c <= '\U{84}'
    ensures !IsSpace(c)
  {
    OutsideRanges(c as int, SpaceRanges);
  }

  /** The `\d` class, restricted to the ASCII digits. */
  predicate IsDigit(c: char) {
    '0' <= c <= '9'
  }

  predicate NoSpace(s: string) {
    forall i | 0 <= i < |s| :: !IsSpace(s[i])
  }

  predicate AllSpace(s: string) {
    forall i | 0 <= i < |s| :: IsSpace(s[i])
  }

  /** Neither end of `s` is whitespace: what `strip()` leaves behind. */
  predicate IsTrimmed(s: string) {
    s == [] || (!IsSpace(s[0]) && !IsSpace(s[|s| - 1]))
  }

  /** `r` is a slice of `s` with no whitespace at its ends, and everything of
      `s` outside the slice is whitespace: `r` is what `s.strip()` returns
      (`StripUnique` shows there is only one such `r`). */
  predicate IsStripOf(s: string, r: string) {
    IsTrimmed(r)
    && exists i | 0 <= i <= |s| - |r| :: r == s[i..i + |r|] && AllSpace(s[..i]) && AllSpace(s[i + |r|..])
  }

  /** A character that is not whitespace, as a filter. */
  predicate NonSpace(c: char) {
    !IsSpace(c)
  }

  /** `s.lstrip()`: the suffix left after the leading whitespace run. */
  function TrimLeft(s: string): (r: string)
    ensures |r| <= |s|
    ensures r == [] || !IsSpace(r[0])
    ensures s != [] && IsSpace(s[0]) ==> |r| < |s|
  {
    if s != [] && IsSpace(s[0]) then TrimLeft(s[1..]) else s
  }

  /** `s.rstrip()`: the prefix left after the trailing whitespace run. */
  function TrimRight(s: string): (r: string)
    ensures |r| <= |s|
    ensures r == [] || !IsSpace(r[|r| - 1])
  {
    if s != [] && IsSpace(s[|s| - 1]) then TrimRight(s[..|s| - 1]) else s
  }

  /** `s.strip()`. */
  function Trim(s: string): (r: string)
    ensures IsTrimmed(r) && |r| <= |s|
    ensures IsTrimmed(s) ==> r == s
    ensures NoSpace(s) ==> r == s
  {
    var t := TrimLeft(s);
    TrimRightPrefix(t);
    var r := TrimRight(t);
    assert r == [] || r[0] == t[0];
    r
  }

  /** `strip()` cuts a whitespace run from each end of `s` and nothing else. */
  lemma TrimIsStrip(s: string)
    ensures IsStripOf(s, Trim(s))
  {
    var t := TrimLeft(s);
    TrimLeftSuffix(s);
    TrimRightPrefix(t);
    var r := TrimRight(t);
    var k := |s| - |t|;
    assert r == s[k..k + |r|] && s[k + |r|..] == t[|r|..];
  }

  /** Facts about a strip `r` of `s` that starts at `i`, when `r` is not
      empty: `i` is the first non-whitespace position of `s` and `r` ends at
      the last one. */
  lemma StripBounds(s: string, r: string, i: nat)
    requires r != [] && IsTrimmed(r)
    requires i + |r| <= |s| && r == s[i..i + |r|] && AllSpace(s[..i]) && AllSpace(s[i + |r|..])
    ensures !IsSpace(s[i]) && !IsSpace(s[i + |r| - 1])
    ensures forall m | 0 <= m < i :: IsSpace(s[m])
    ensures forall m | i + |r| <= m < |s| :: IsSpace(s[m])
  {
    assert s[i] == r[0] && s[i + |r| - 1] == r[|r| - 1];
    forall m | 0 <= m < i ensures IsSpace(s[m]) {
      assert s[..i][m] == s[m];
    }
    forall m | i + |r| <= m < |s| ensures IsSpace(s[m]) {
      assert s[i + |r|..][m - i - |r|] == s[m];
    }
  }

  /** A strip of `s` is empty exactly when `s` is all whitespace. */
  lemma StripEmpty(s: string, r: string)
    requires IsStripOf(s, r)
    ensures r == [] <==> AllSpace(s)
  {
    var i :| 0 <= i <= |s| - |r| && r == s[i..i + |r|] && AllSpace(s[..i]) && AllSpace(s[i + |r|..]);
    if r == [] {
      forall m | 0 <= m < |s| ensures IsSpace(s[m]) {
        if m < i {
          assert s[..i][m] == s[m];
        } else {
          assert s[i..][m - i] == s[m];
        }
      }
    } else {
      StripBounds(s, r, i);
    }
  }

  /** A string has only one strip, so `IsStripOf` pins `strip()`'s result. */
  lemma StripUnique(s: string, r1: string, r2: string)
    requires IsStripOf(s, r1) && IsStripOf(s, r2)
    ensures r1 == r2
  {
    StripEmpty(s, r1);
    StripEmpty(s, r2);
    if r1 != [] {
      var i1 :| 0 <= i1 <= |s| - |r1| && r1 == s[i1..i1 + |r1|] && AllSpace(s[..i1]) && AllSpace(s[i1 + |r1|..]);
      var i2 :| 0 <= i2 <= |s| - |r2| && r2 == s[i2..i2 + |r2|] && AllSpace(s[..i2]) && AllSpace(s[i2 + |r2|..]);
      StripBounds(s, r1, i1);
      StripBounds(s, r2, i2);
      assert i1 == i2;
      assert i1 + |r1| == i2 + |r2|;
    }
  }

  /** The longest prefix of `s` that holds no whitespace. */
  function Word(s: string): (w: string)
    ensures |w| <= |s| && w == s[..|w|] && NoSpace(w)
    ensures |w| == |s| || IsSpace(s[|w|])
  {
    if s == [] || IsSpace(s[0]) then [] else [s[0]] + Word(s[1..])
  }

  /** `s.split()`: the maximal whitespace-free runs of `s`, in order. */
  function Split(s: string): (ws: seq<string>)
    ensures forall i | 0 <= i < |ws| :: ws[i] != [] && NoSpace(ws[i])
    decreases |s|
  {
    var t := TrimLeft(s);
    if t == [] then []
    else
      var w := Word(t);
      [w] + Split(t[|w|..])
  }

  /** The words `Split` produces: non-empty and whitespace-free. */
  predicate AreWords(ws: seq<string>) {
    forall i | 0 <= i < |ws| :: ws[i] != [] && NoSpace(ws[i])
  }

  /** `" ".join(ws)`. */
  function Join(ws: seq<string>): string {
    if ws == [] then []
    else if |ws| == 1 then ws[0]
    else ws[0] + " " + Join(ws[1..])
  }

  /** `s.endswith(p)`. */
  predicate EndsWith(s: string, p: string) {
    |p| <= |s| && s[|s| - |p|..] == p
  }

  /** `s.startswith(p)`. */
  predicate StartsWith(s: string, p: string) {
    |p| <= |s| && s[..|p|] == p
  }

  /** `p` occurs in `s` at position `j`. */
  predicate OccursAt(s: string, p: string, j: nat)
    requires j <= |s|
  {
    StartsWith(s[j..], p)
  }

  /** `s.find(p)`, as an option: the first position at which `p` occurs. */
  function IndexOf(s: string, p: string): (r: Option<nat>)
    ensures r.Some? ==> r.value + |p| <= |s| && OccursAt(s, p, r.value)
    ensures r.Some? ==> forall j | 0 <= j < r.value :: !OccursAt(s, p, j)
    ensures r.None? ==> forall j | 0 <= j <= |s| :: !OccursAt(s, p, j)
  {
    if StartsWith(s, p) then Some(0)
    else if s == [] then None
    else
      var r := IndexOf(s[1..], p);
      assert forall j | 1 <= j <= |s| :: OccursAt(s, p, j) == OccursAt(s[1..], p, j - 1) by {
        forall j | 1 <= j <= |s| ensures OccursAt(s, p, j) == OccursAt(s[1..], p, j - 1) {
          assert s[j..] == s[1..][j - 1..];
        }
      }
      if r.None? then None else Some(r.value + 1)
  }

  /** `p in s`. */
  predicate Contains(s: string, p: string) {
    IndexOf(s, p).Some?
  }

  /** `s.replace(p, "")`: the non-overlapping occurrences of `p`, found left
      to right, are deleted (an empty `p` leaves `s` as it is). */
  function RemoveAll(s: string, p: string): (r: string)
    ensures |r| <= |s|
    decreases |s|
  {
    if p == [] then s
    else if StartsWith(s, p) then RemoveAll(s[|p|..], p)
    else if s == [] then []
    else [s[0]] + RemoveAll(s[1..], p)
  }

  /** The characters of `s` that satisfy `keep`, in order (a character-class
      substitution by the empty string). */
  function Keep(s: string, keep: char -> bool): (r: string)
    ensures |r| <= |s|
    ensures forall i | 0 <= i < |r| :: keep(r[i])
  {
    if s == [] then []
    else if keep(s[0]) then [s[0]] + Keep(s[1..], keep)
    else Keep(s[1..], keep)
  }

  /** The number of occurrences of `c` in `s`. */
  function Count(s: string, c: char): nat {
    if s == [] then 0 else (if s[0] == c then 1 else 0) + Count(s[1..], c)
  }

  /** `re.sub(r'\s+', ' ', s)`: every maximal whitespace run becomes one space. */
  function CollapseSpaces(s: string): (r: string)
    ensures s == [] <==> r == []
    ensures s != [] ==> r[0] == (if IsSpace(s[0]) then ' ' else s[0])
    ensures s != [] ==> (IsSpace(r[|r| - 1]) <==> IsSpace(s[|s| - 1]))
    ensures forall i | 0 <= i < |r| :: IsSpace(r[i]) ==> r[i] == ' '
    ensures forall i | 0 <= i < |r| - 1 :: !(r[i] == ' ' && r[i + 1] == ' ')
    decreases |s|
  {
    if s == [] then []
    else if IsSpace(s[0]) then
      var t := TrimLeft(s);
      TrimLeftSuffix(s);
      var rest := CollapseSpaces(t);
      assert t != [] ==> t[|t| - 1] == s[|s| - 1];
      BlankIsSpace();
      " " + rest
    else
      [s[0]] + CollapseSpaces(s[1..])
  }

  /** The concatenation of text fragments. */
  function Concat(parts: seq<string>): string {
    if parts == [] then [] else parts[0] + Concat(parts[1..])
  }

  /** `lstrip` removes a whitespace prefix and nothing else. */
  lemma {:induction false} TrimLeftSuffix(s: string)
    ensures TrimLeft(s) == s[|s| - |TrimLeft(s)|..]
    ensures AllSpace(s[..|s| - |TrimLeft(s)|])
    decreases |s|
  {
    if s != [] && IsSpace(s[0]) {
      TrimLeftSuffix(s[1..]);
      var k := |s| - |TrimLeft(s)|;
      assert s[1..][k - 1..] == s[k..];
      assert forall i | 1 <= i < k :: s[..k][i] == s[1..][..k - 1][i - 1];
    }
  }

  /** `rstrip` removes a whitespace suffix and nothing else. */
  lemma {:induction false} TrimRightPrefix(s: string)
    ensures TrimRight(s) == s[..|TrimRight(s)|]
    ensures AllSpace(s[|TrimRight(s)|..])
    decreases |s|
  {
    if s != [] && IsSpace(s[|s| - 1]) {
      TrimRightPrefix(s[..|s| - 1]);
      var k := |TrimRight(s)|;
      assert s[..|s| - 1][..k] == s[..k];
      assert forall i | 0 <= i < |s| - 1 - k :: s[k..][i] == s[..|s| - 1][k..][i];
    }
  }

  // ---------------------------------------------------------------------
  // Lemmas about splitting and joining
  // ---------------------------------------------------------------------

  /** A whitespace-free word followed by whitespace (or nothing) is exactly
      the word that `Word` takes. */
  lemma {:induction false} WordOfWord(w: string, rest: string)
    requires NoSpace(w)
    requires rest == [] || IsSpace(rest[0])
    ensures Word(w + rest) == w
    decreases |w|
  {
    if w == [] {
      assert w + rest == rest;
    } else {
      assert (w + rest)[0] == w[0];
      assert (w + rest)[1..] == w[1..] + rest;
      WordOfWord(w[1..], rest);
    }
  }

  /** Leading whitespace does not change the words. */
  lemma SplitSkipsLeadingSpace(sp: string, s: string)
    requires AllSpace(sp)
    ensures Split(sp + s) == Split(s)
  {
    TrimLeftSkipsSpace(sp, s);
  }

  lemma {:induction false} TrimLeftSkipsSpace(sp: string, s: string)
    requires AllSpace(sp)
    ensures TrimLeft(sp + s) == TrimLeft(s)
    decreases |sp|
  {
    if sp != [] {
      var t := sp + s;
      assert t[0] == sp[0] && IsSpace(t[0]);
      assert t[1..] == sp[1..] + s;
      assert TrimLeft(t) == TrimLeft(t[1..]);
      TrimLeftSkipsSpace(sp[1..], s);
    } else {
      assert sp + s == s;
    }
  }

  /** Joining words with single spaces and splitting again gives the words back. */
  lemma {:induction false} SplitJoin(ws: seq<string>)
    requires AreWords(ws)
    ensures Split(Join(ws)) == ws
    decreases |ws|
  {
    if |ws| == 1 {
      WordOfWord(ws[0], []);
      assert ws[0] + [] == ws[0];
    } else if |ws| > 1 {
      var rest := " " + Join(ws[1..]);
      var s := ws[0] + rest;
      assert Join(ws) == s;
      assert Split(s) == [ws[0]] + Split(Join(ws[1..])) by {
        BlankIsSpace();
        assert s[0] == ws[0][0];
        WordOfWord(ws[0], rest);
        assert s[|ws[0]|..] == rest;
        SplitSkipsLeadingSpace(" ", Join(ws[1..]));
      }
      SplitJoin(ws[1..]);
      assert ws == [ws[0]] + ws[1..];
    }
  }

  /** Joining words gives a string with no whitespace at either end. */
  lemma {:induction false} JoinIsTrimmed(ws: seq<string>)
    requires AreWords(ws)
    ensures IsTrimmed(Join(ws))
    ensures ws != [] ==> Join(ws) != [] && Join(ws)[0] == ws[0][0]
    decreases |ws|
  {
    if |ws| > 1 {
      JoinIsTrimmed(ws[1..]);
    }
  }

  /** A string that starts with a word splits into that word and the rest. */
  lemma SplitAtWord(t: string)
    requires t != [] && !IsSpace(t[0])
    ensures Split(t) == [Word(t)] + Split(t[|Word(t)|..])
  {
    assert TrimLeft(t) == t;
  }

  /** Trailing whitespace does not change the first word. */
  lemma WordIgnoresTrailingSpace(t: string, sp: string)
    requires AllSpace(sp)
    ensures Word(t + sp) == Word(t)
  {
    var w := Word(t);
    if |w| < |t| {
      assert t + sp == w + (t[|w|..] + sp);
      WordOfWord(w, t[|w|..] + sp);
    } else {
      assert t == w;
      WordOfWord(w, sp);
    }
  }

  /** Trailing whitespace does not change the words. */
  lemma {:induction false} SplitIgnoresTrailingSpace(s: string, sp: string)
    requires AllSpace(sp)
    ensures Split(s + sp) == Split(s)
    decreases |s|
  {
    var t := TrimLeft(s);
    TrimLeftSuffix(s);
    var k := |s| - |t|;
    assert s == s[..k] + t;
    assert s + sp == s[..k] + (t + sp);
    SplitSkipsLeadingSpace(s[..k], t);
    SplitSkipsLeadingSpace(s[..k], t + sp);
    if t == [] {
      assert t + sp == sp + [];
      SplitSkipsLeadingSpace(sp, []);
    } else {
      SplitWordThenTrailingSpace(t, sp);
    }
  }

  lemma {:induction false} SplitWordThenTrailingSpace(t: string, sp: string)
    requires AllSpace(sp)
    requires t != [] && !IsSpace(t[0])
    ensures Split(t + sp) == Split(t)
    decreases |t|, 0
  {
    var w := Word(t);
    SplitAtWord(t);
    assert (t + sp)[0] == t[0];
    SplitAtWord(t + sp);
    WordIgnoresTrailingSpace(t, sp);
    assert (t + sp)[|w|..] == t[|w|..] + sp;
    SplitIgnoresTrailingSpace(t[|w|..], sp);
  }

  /** A whitespace run between two strings separates their words. */
  lemma {:induction false} SplitAroundSpace(a: string, sp: string, b: string)
    requires sp != [] && AllSpace(sp)
    ensures Split(a + sp + b) == Split(a) + Split(b)
    decreases |a|
  {
    var t := TrimLeft(a);
    TrimLeftSuffix(a);
    var k := |a| - |t|;
    assert a == a[..k] + t;
    assert a + sp + b == a[..k] + (t + sp + b);
    SplitSkipsLeadingSpace(a[..k], t);
    SplitSkipsLeadingSpace(a[..k], t + sp + b);
    if t == [] {
      assert t + sp + b == sp + b;
      SplitSkipsLeadingSpace(sp, b);
    } else {
      SplitWordThenSpace(t, sp, b);
    }
  }

  lemma {:induction false} SplitWordThenSpace(t: string, sp: string, b: string)
    requires sp != [] && AllSpace(sp)
    requires t != [] && !IsSpace(t[0])
    ensures Split(t + sp + b) == Split(t) + Split(b)
    decreases |t|, 0
  {
    var w := Word(t);
    var x := t + sp + b;
    var rest := t[|w|..];
    SplitAtWord(t);
    WordThenSpace(t, sp, b);
    SplitAtWord(x);
    SplitAroundSpace(rest, sp, b);
    ConsAssoc(w, Split(rest), Split(b));
  }

  lemma SliceAfterHead(s: string, i: nat, n: nat)
    requires 0 < i && i + n <= |s|
    ensures s[..i] == [s[0]] + s[1..][..i - 1]
    ensures s[1..][i - 1 + n..] == s[i + n..]
  {
  }

  lemma ConsSplit(w: string, ys: string)
    requires w != []
    ensures [w[0]] + (w[1..] + ys) == w + ys
  {
  }

  lemma ConsAppend(c: char, xs: string, ys: string)
    ensures [c] + (xs + ys) == ([c] + xs) + ys
  {
  }

  lemma ConsAssoc(w: string, xs: seq<string>, ys: seq<string>)
    ensures [w] + (xs + ys) == ([w] + xs) + ys
  {
  }

  /** Whatever follows a whitespace run does not change the first word. */
  lemma WordThenSpace(t: string, sp: string, b: string)
    requires sp != [] && AllSpace(sp)
    ensures t != [] ==> (t + sp + b)[0] == t[0]
    ensures var w := Word(t);
      Word(t + sp + b) == w && (t + sp + b)[|w|..] == t[|w|..] + sp + b
  {
    var w := Word(t);
    var rest := t[|w|..];
    assert t == w + rest;
    assert t + sp + b == w + (rest + sp + b);
    assert (rest + sp + b)[0] == (if rest == [] then sp[0] else rest[0]);
    WordOfWord(w, rest + sp + b);
  }

  /** `strip()` does not change the words. */
  lemma SplitOfTrim(s: string)
    ensures Split(Trim(s)) == Split(s)
  {
    var t := TrimLeft(s);
    TrimLeftSuffix(s);
    var k := |s| - |t|;
    assert s == s[..k] + t;
    SplitSkipsLeadingSpace(s[..k], t);
    var r := TrimRight(t);
    TrimRightPrefix(t);
    assert t == r + t[|r|..];
    SplitIgnoresTrailingSpace(r, t[|r|..]);
  }

  // ---------------------------------------------------------------------
  // Lemmas about character filters
  // ---------------------------------------------------------------------

  lemma {:induction false} KeepAppend(a: string, b: string, keep: char -> bool)
    ensures Keep(a + b, keep) == Keep(a, keep) + Keep(b, keep)
    decreases |a|
  {
    if a != [] {
      assert (a + b)[0] == a[0];
      assert (a + b)[1..] == a[1..] + b;
      KeepAppend(a[1..], b, keep);
    } else {
      assert a + b == b;
    }
  }

  /** A filter that keeps only non-whitespace ignores whitespace. */
  lemma {:induction false} KeepOfSpace(s: string, keep: char -> bool)
    requires AllSpace(s)
    requires forall c :: keep(c) ==> !IsSpace(c)
    ensures Keep(s, keep) == []
    decreases |s|
  {
    if s != [] {
      KeepOfSpace(s[1..], keep);
    }
  }

  /** Filtering twice, the second time by a narrower test, is filtering once by it. */
  lemma {:induction false} KeepKeep(s: string, wide: char -> bool, narrow: char -> bool)
    requires forall c :: narrow(c) ==> wide(c)
    ensures Keep(Keep(s, wide), narrow) == Keep(s, narrow)
    decreases |s|
  {
    if s != [] {
      KeepKeep(s[1..], wide, narrow);
    }
  }

  /** A filter that keeps every character of `s` returns `s`. */
  lemma {:induction false} KeepEverything(s: string, keep: char -> bool)
    requires forall i | 0 <= i < |s| :: keep(s[i])
    ensures Keep(s, keep) == s
    decreases |s|
  {
    if s != [] {
      KeepEverything(s[1..], keep);
    }
  }

  /** Under a filter that keeps all whitespace, `strip()` changes no word of
      what the filter leaves. */
  lemma SplitKeepOfTrim(s: string, keep: char -> bool)
    requires forall c :: IsSpace(c) ==> keep(c)
    ensures Split(Keep(Trim(s), keep)) == Split(Keep(s, keep))
  {
    var t := TrimLeft(s);
    TrimLeftSuffix(s);
    var pre := s[..|s| - |t|];
    assert s == pre + t;
    var m := TrimRight(t);
    TrimRightPrefix(t);
    var post := t[|m|..];
    assert t == m + post;
    assert Trim(s) == m;
    KeepAppend(pre, t, keep);
    KeepAppend(m, post, keep);
    KeepEverything(pre, keep);
    KeepEverything(post, keep);
    assert Keep(s, keep) == pre + (Keep(m, keep) + post);
    SplitSkipsLeadingSpace(pre, Keep(m, keep) + post);
    SplitIgnoresTrailingSpace(Keep(m, keep), post);
  }

  /** `strip()` removes nothing that a non-whitespace filter would keep. */
  lemma KeepOfTrim(s: string, keep: char -> bool)
    requires forall c :: keep(c) ==> !IsSpace(c)
    ensures Keep(Trim(s), keep) == Keep(s, keep)
  {
    var t := TrimLeft(s);
    TrimLeftSuffix(s);
    var k := |s| - |t|;
    assert s == s[..k] + t;
    KeepAppend(s[..k], t, keep);
    KeepOfSpace(s[..k], keep);
    var r := TrimRight(t);
    TrimRightPrefix(t);
    assert t == r + t[|r|..];
    KeepAppend(r, t[|r|..], keep);
    KeepOfSpace(t[|r|..], keep);
  }

  /** Deleting occurrences of `p` removes nothing a filter rejecting `p`'s characters keeps. */
  lemma {:induction false} KeepOfRemoveAll(s: string, p: string, keep: char -> bool)
    requires forall i | 0 <= i < |p| :: !keep(p[i])
    ensures Keep(RemoveAll(s, p), keep) == Keep(s, keep)
    decreases |s|
  {
    if p == [] {
    } else if StartsWith(s, p) {
      assert s == p + s[|p|..];
      KeepAppend(p, s[|p|..], keep);
      KeepNothing(p, keep);
      KeepOfRemoveAll(s[|p|..], p, keep);
    } else if s != [] {
      KeepOfRemoveAll(s[1..], p, keep);
    }
  }

  lemma {:induction false} KeepNothing(s: string, keep: char -> bool)
    requires forall i | 0 <= i < |s| :: !keep(s[i])
    ensures Keep(s, keep) == []
    decreases |s|
  {
    if s != [] {
      KeepNothing(s[1..], keep);
    }
  }

  /** Deleting the occurrences of a single character leaves none of it. */
  lemma {:induction false} RemoveAllChar(s: string, c: char)
    ensures c !in RemoveAll(s, [c])
    ensures forall d | d != c :: d in s ==> d in RemoveAll(s, [c])
    decreases |s|
  {
    if s != [] {
      RemoveAllChar(s[1..], c);
      if s[0] == c {
        assert StartsWith(s, [c]);
        assert s[1..] == s[|[c]|..];
      } else {
        assert !StartsWith(s, [c]);
      }
    }
  }

  /** A non-whitespace character survives `strip()`. */
  lemma TrimKeeps(s: string, c: char)
    requires c in s && !IsSpace(c)
    ensures c in Trim(s)
  {
    var t := TrimLeft(s);
    TrimLeftSuffix(s);
    var k := |s| - |t|;
    var i :| 0 <= i < |s| && s[i] == c;
    assert i >= k;
    assert t[i - k] == c;
    var r := TrimRight(t);
    TrimRightPrefix(t);
    assert i - k < |r|;
    assert r[i - k] == c;
  }

  /** `strip()` keeps only characters of `s`. */
  lemma TrimKeepsClass(s: string, keep: char -> bool)
    requires forall i | 0 <= i < |s| :: keep(s[i])
    ensures forall i | 0 <= i < |Trim(s)| :: keep(Trim(s)[i])
  {
    var t := TrimLeft(s);
    TrimLeftSuffix(s);
    TrimRightPrefix(t);
    assert forall i | 0 <= i < |t| :: t[i] == s[|s| - |t| + i];
  }

  /** Deleting occurrences keeps only characters of `s`. */
  lemma {:induction false} RemoveAllKeepsClass(s: string, p: string, keep: char -> bool)
    requires forall i | 0 <= i < |s| :: keep(s[i])
    ensures forall i | 0 <= i < |RemoveAll(s, p)| :: keep(RemoveAll(s, p)[i])
    decreases |s|
  {
    if p == [] {
    } else if StartsWith(s, p) {
      RemoveAllKeepsClass(s[|p|..], p, keep);
    } else if s != [] {
      RemoveAllKeepsClass(s[1..], p, keep);
    }
  }

  // ---------------------------------------------------------------------
  // Lemmas about deleting occurrences
  // ---------------------------------------------------------------------

  /** Without an occurrence of `p`, `replace(p, "")` changes nothing. */
  lemma {:induction false} RemoveAllAbsent(s: string, p: string)
    requires !Contains(s, p)
    ensures RemoveAll(s, p) == s
    decreases |s|
  {
    assert s[0..] == s;
    assert !OccursAt(s, p, 0);
    if s != [] {
      assert !Contains(s[1..], p) by {
        forall j | 0 <= j <= |s[1..]| ensures !OccursAt(s[1..], p, j) {
          assert s[1..][j..] == s[j + 1..];
          assert !OccursAt(s, p, j + 1);
        }
      }
      RemoveAllAbsent(s[1..], p);
    }
  }

  /** Text in which no occurrence of `p` starts is kept as it is, whatever
      follows it. */
  lemma {:induction false} RemoveAllKeepsPrefix(x: string, s: string, p: string)
    requires p != []
    requires forall j | 0 <= j < |x| :: !StartsWith((x + s)[j..], p)
    ensures RemoveAll(x + s, p) == x + RemoveAll(s, p)
    decreases |x|
  {
    if x == [] {
      assert x + s == s;
    } else {
      var xs := x + s;
      assert xs[0..] == xs && xs[0] == x[0];
      assert xs[1..] == x[1..] + s;
      forall j | 0 <= j < |x[1..]| ensures !StartsWith((x[1..] + s)[j..], p) {
        assert (x[1..] + s)[j..] == xs[j + 1..];
      }
      RemoveAllKeepsPrefix(x[1..], s, p);
      ConsSplit(x, RemoveAll(s, p));
    }
  }

  /** `replace(p, "")` keeps everything before the first occurrence of `p`,
      drops that occurrence and goes on after it. With `RemoveAllAbsent`
      this determines the result for every non-empty `p`. */
  lemma RemoveAllAtFirst(s: string, p: string, i: nat)
    requires p != [] && IndexOf(s, p) == Some(i)
    ensures RemoveAll(s, p) == s[..i] + RemoveAll(s[i + |p|..], p)
  {
    var x, rest := s[..i], s[i..];
    assert s == x + rest;
    forall j | 0 <= j < |x| ensures !StartsWith((x + rest)[j..], p) {
      assert !OccursAt(s, p, j);
    }
    RemoveAllKeepsPrefix(x, rest, p);
    assert OccursAt(s, p, i);
    assert rest[|p|..] == s[i + |p|..];
  }

  // ---------------------------------------------------------------------
  // Lemmas about collapsing whitespace runs
  // ---------------------------------------------------------------------

  /** Collapsing whitespace runs removes nothing a non-whitespace filter keeps:
      every other character survives, in order. */
  lemma {:induction false} CollapseKeepsText(s: string, keep: char -> bool)
    requires forall c :: keep(c) ==> !IsSpace(c)
    ensures Keep(CollapseSpaces(s), keep) == Keep(s, keep)
    decreases |s|
  {
    if s != [] {
      if IsSpace(s[0]) {
        var t := TrimLeft(s);
        TrimLeftSuffix(s);
        var k := |s| - |t|;
        assert s == s[..k] + t;
        CollapseKeepsText(t, keep);
        KeepAppend(s[..k], t, keep);
        KeepOfSpace(s[..k], keep);
        BlankIsSpace();
        KeepAppend(" ", CollapseSpaces(t), keep);
        KeepOfSpace(" ", keep);
      } else {
        CollapseKeepsText(s[1..], keep);
      }
    }
  }

  /** A whitespace-free prefix passes the collapse unchanged. */
  lemma {:induction false} CollapseWordPrefix(w: string, rest: string)
    requires NoSpace(w)
    ensures CollapseSpaces(w + rest) == w + CollapseSpaces(rest)
    decreases |w|
  {
    if w == [] {
      assert w + rest == rest;
    } else {
      var x := w + rest;
      assert x[0] == w[0] && x[1..] == w[1..] + rest;
      assert CollapseSpaces(x) == [w[0]] + CollapseSpaces(w[1..] + rest);
      CollapseWordPrefix(w[1..], rest);
      ConsSplit(w, CollapseSpaces(rest));
    }
  }

  /** Collapsing whitespace runs keeps the words. */
  lemma {:induction false} CollapseKeepsWords(s: string)
    ensures Split(CollapseSpaces(s)) == Split(s)
    decreases |s|
  {
    if s != [] && IsSpace(s[0]) {
      CollapseLeadingSpace(s);
      CollapseKeepsWords(TrimLeft(s));
    } else if s != [] {
      var w := Word(s);
      if |w| < |s| {
        CollapseAfterWord(s);
        CollapseKeepsWords(TrimLeft(s[|w|..]));
      } else {
        assert s == w + [];
        CollapseWordPrefix(w, []);
      }
    }
  }

  /** A leading whitespace run is one blank after the collapse. */
  lemma CollapseLeadingSpace(s: string)
    requires s != [] && IsSpace(s[0])
    ensures |TrimLeft(s)| < |s|
    ensures Split(CollapseSpaces(s)) == Split(CollapseSpaces(TrimLeft(s)))
    ensures Split(s) == Split(TrimLeft(s))
  {
    var t := TrimLeft(s);
    TrimLeftSuffix(s);
    var k := |s| - |t|;
    assert s == s[..k] + t;
    SplitSkipsLeadingSpace(s[..k], t);
    BlankIsSpace();
    assert AllSpace(" ");
    SplitSkipsLeadingSpace(" ", CollapseSpaces(t));
  }

  /** A leading word followed by whitespace: the word stays and the whitespace
      run becomes one blank. */
  lemma CollapseAfterWord(s: string)
    requires s != [] && !IsSpace(s[0]) && |Word(s)| < |s|
    ensures var w := Word(s); var t := TrimLeft(s[|w|..]);
      && |t| < |s|
      && Split(CollapseSpaces(s)) == Split(w) + Split(CollapseSpaces(t))
      && Split(s) == Split(w) + Split(t)
  {
    var w := Word(s);
    var rest := s[|w|..];
    assert s == w + rest;
    CollapseWordThenSpace(w, rest);
    SplitWordBlank(w, CollapseSpaces(TrimLeft(rest)));
    SplitWordThenSpaceRun(w, rest);
  }

  lemma SplitWordBlank(w: string, c: string)
    ensures Split(w + " " + c) == Split(w) + Split(c)
  {
    BlankIsSpace();
    assert AllSpace(" ");
    SplitAroundSpace(w, " ", c);
  }

  lemma SplitWordThenSpaceRun(w: string, rest: string)
    requires rest != [] && IsSpace(rest[0])
    ensures Split(w + rest) == Split(w) + Split(TrimLeft(rest))
  {
    var t := TrimLeft(rest);
    TrimLeftSuffix(rest);
    var sp := rest[..|rest| - |t|];
    assert rest == sp + t;
    assert w + rest == w + sp + t;
    SplitAroundSpace(w, sp, t);
  }

  lemma CollapseWordThenSpace(w: string, rest: string)
    requires NoSpace(w) && rest != [] && IsSpace(rest[0])
    ensures CollapseSpaces(w + rest) == w + " " + CollapseSpaces(TrimLeft(rest))
  {
    CollapseWordPrefix(w, rest);
    var c := CollapseSpaces(TrimLeft(rest));
    assert CollapseSpaces(rest) == " " + c;
    assert w + (" " + c) == w + " " + c;
  }

  /** The only whitespace is single blanks: what `CollapseSpaces` produces. */
  predicate IsCollapsed(s: string) {
    && (forall i | 0 <= i < |s| :: IsSpace(s[i]) ==> s[i] == ' ')
    && (forall i | 0 <= i < |s| - 1 :: !(IsSpace(s[i]) && IsSpace(s[i + 1])))
  }

  /** Text whose only whitespace is single blanks is its own collapse. */
  lemma {:induction false} CollapseOfCollapsed(s: string)
    requires IsCollapsed(s)
    ensures CollapseSpaces(s) == s
    decreases |s|
  {
    if s != [] {
      CollapsedTail(s);
      CollapseOfCollapsed(s[1..]);
      if IsSpace(s[0]) {
        assert TrimLeft(s) == s[1..] by {
          assert TrimLeft(s) == TrimLeft(s[1..]);
        }
      }
      assert s == [s[0]] + s[1..];
    }
  }

  lemma CollapsedTail(s: string)
    requires s != [] && IsCollapsed(s)
    ensures IsCollapsed(s[1..])
    ensures IsSpace(s[0]) ==> s[0] == ' ' && (s[1..] == [] || !IsSpace(s[1..][0]))
  {
    assert forall i | 0 <= i < |s| - 1 :: s[1..][i] == s[i + 1];
  }

  /** Collapsing twice is collapsing once. */
  lemma CollapseIdempotent(s: string)
    ensures CollapseSpaces(CollapseSpaces(s)) == CollapseSpaces(s)
  {
    CollapseOfCollapsed(CollapseSpaces(s));
  }
}

=== FILE: variants.dfy ===
/** The variant record produced for every product variant, and the
    deduplication by serial number that `scrape_product_variants` applies
    before cleanup: the first record with a given non-empty serial wins,
    records without a serial are always kept. */
module Variants {

  /** One output row: `product_name`, `product_price`, `product_serial_number`. */
  datatype Variant = Variant(name: string, price: string, serial: string)

  /** The non-empty serials occurring in `rs`: the `seen_serials` set once
      `rs` has been scanned. */
  function Serials(rs: seq<Variant>): set<string> {
    set i | 0 <= i < |rs| && rs[i].serial != "" :: rs[i].serial
  }

  /** Record `i` survives deduplication: its serial is empty, or no earlier
      record carries the same serial. */
  predicate IsFirstOfSerial(rs: seq<Variant>, i: nat)
    requires i < |rs|
  {
    rs[i].serial == "" || forall j | 0 <= j < i :: rs[j].serial != rs[i].serial
  }

  /** No two records share a non-empty serial. */
  predicate SerialsDistinct(rs: seq<Variant>) {
    forall a, b | 0 <= a < b < |rs| :: rs[a].serial != "" ==> rs[a].serial != rs[b].serial
  }

  /** The dedup loop, stated on the records scanned so far: the last record
      is appended when its serial is new, or when it has none. */
  function Dedup(rs: seq<Variant>): (r: seq<Variant>)
    ensures |r| <= |rs|
  {
    if rs == [] then []
    else
      var init := rs[..|rs| - 1];
      var v := rs[|rs| - 1];
      if v.serial != "" && v.serial !in Serials(init) then Dedup(init) + [v]
      else if v.serial == "" then Dedup(init) + [v]
      else Dedup(init)
  }

  /** The positions of the records that survive, in increasing order. */
  ghost function KeptPositions(rs: seq<Variant>): seq<nat> {
    if rs == [] then []
    else KeptPositions(rs[..|rs| - 1]) + (if IsFirstOfSerial(rs, |rs| - 1) then [|rs| - 1] else [])
  }

  ghost predicate Increasing(xs: seq<nat>) {
    forall a, b | 0 <= a < b < |xs| :: xs[a] < xs[b]
  }

  /** The loop in `scrape_product_variants` that builds `unique_variants`. */
  method DedupBySerial(all: seq<Variant>) returns (unique: seq<Variant>)
    ensures unique == Dedup(all)
    ensures SerialsDistinct(unique)
    ensures Serials(unique) == Serials(all)
    ensures forall i | 0 <= i < |all| :: all[i].serial == "" ==> all[i] in unique
  {
    unique := [];
    var seen: set<string> := {};
    for i := 0 to |all|
      invariant unique == Dedup(all[..i])
      invariant seen == Serials(all[..i])
    {
      assert all[..i + 1][..i] == all[..i];
      SerialsSnoc(all[..i], all[i]);
      assert all[..i] + [all[i]] == all[..i + 1];
      var serial := all[i].serial;
      if serial != "" && serial !in seen {
        seen := seen + {serial};
        unique := unique + [all[i]];
      } else if serial == "" {
        unique := unique + [all[i]];
      }
    }
    assert all[..|all|] == all;
    DedupSerials(all);
    DedupSerialsDistinct(all);
    forall i | 0 <= i < |all| && all[i].serial == ""
      ensures all[i] in unique
    {
      DedupKeepsFirstOccurrences(all);
      var ks := KeptPositions(all);
      assert IsFirstOfSerial(all, i);
      var k :| 0 <= k < |ks| && ks[k] == i;
      assert unique[k] == all[i];
    }
  }

  // ---------------------------------------------------------------------
  // Properties of deduplication
  // ---------------------------------------------------------------------

  lemma SerialsSnoc(rs: seq<Variant>, v: Variant)
    ensures Serials(rs + [v]) == Serials(rs) + (if v.serial != "" then {v.serial} else {})
  {
    var s := rs + [v];
    forall x | x in Serials(s) ensures x in Serials(rs) + (if v.serial != "" then {v.serial} else {}) {
      var i :| 0 <= i < |s| && s[i].serial != "" && s[i].serial == x;
      if i < |rs| {
        assert rs[i] == s[i];
      }
    }
    forall x | x in Serials(rs) ensures x in Serials(s) {
      var i :| 0 <= i < |rs| && rs[i].serial != "" && rs[i].serial == x;
      assert s[i] == rs[i];
    }
    if v.serial != "" {
      assert s[|rs|] == v;
    }
  }

  /** Dedup keeps exactly the records at the positions where a serial is
      empty or seen for the first time, in their original order. */
  lemma {:induction false} DedupKeepsFirstOccurrences(rs: seq<Variant>)
    ensures |Dedup(rs)| == |KeptPositions(rs)|
    ensures Increasing(KeptPositions(rs))
    ensures forall k | 0 <= k < |KeptPositions(rs)| ::
      KeptPositions(rs)[k] < |rs| && Dedup(rs)[k] == rs[KeptPositions(rs)[k]]
    ensures forall i | 0 <= i < |rs| :: i in KeptPositions(rs) <==> IsFirstOfSerial(rs, i)
  {
    KeptPositionsAreFirsts(rs);
    if rs != [] {
      var n := |rs| - 1;
      var init := rs[..n];
      DedupKeepsFirstOccurrences(init);
      LastIsFirstOfSerial(rs);
      var d0, ks0 := Dedup(init), KeptPositions(init);
      var d, ks := Dedup(rs), KeptPositions(rs);
      if IsFirstOfSerial(rs, n) {
        assert d == d0 + [rs[n]] && ks == ks0 + [n];
        forall k | 0 <= k < |ks| ensures d[k] == rs[ks[k]] {
          if k < |ks0| {
            assert d[k] == d0[k] && ks[k] == ks0[k];
          }
        }
      } else {
        assert d == d0 && ks == ks0;
      }
    }
  }

  /** The kept positions are in range and are exactly the first records of
      their serials. */
  lemma {:induction false} KeptPositionsAreFirsts(rs: seq<Variant>)
    ensures forall k | 0 <= k < |KeptPositions(rs)| :: KeptPositions(rs)[k] < |rs|
    ensures forall i | 0 <= i < |rs| :: i in KeptPositions(rs) <==> IsFirstOfSerial(rs, i)
  {
    if rs != [] {
      var n := |rs| - 1;
      var init := rs[..n];
      KeptPositionsAreFirsts(init);
      FirstOfSerialOfPrefix(rs);
      var ks0, ks := KeptPositions(init), KeptPositions(rs);
      forall i | 0 <= i < |rs| ensures i in ks <==> IsFirstOfSerial(rs, i) {
        if i < n {
          assert i in ks <==> i in ks0;
        } else {
          assert n !in ks0;
        }
      }
    }
  }

  /** Whether a record is the first of its serial depends only on the records before it. */
  lemma FirstOfSerialOfPrefix(rs: seq<Variant>)
    requires rs != []
    ensures forall i | 0 <= i < |rs| - 1 :: IsFirstOfSerial(rs, i) == IsFirstOfSerial(rs[..|rs| - 1], i)
  {
    var init := rs[..|rs| - 1];
    forall i | 0 <= i < |rs| - 1 ensures IsFirstOfSerial(rs, i) == IsFirstOfSerial(init, i) {
      assert forall j | 0 <= j <= i :: rs[j] == init[j];
    }
  }

  /** The dedup test on the last record decides whether it is the first of its serial. */
  lemma LastIsFirstOfSerial(rs: seq<Variant>)
    requires rs != []
    ensures var n := |rs| - 1;
      IsFirstOfSerial(rs, n) <==> rs[n].serial == "" || rs[n].serial !in Serials(rs[..n])
  {
    var n := |rs| - 1;
    var init := rs[..n];
    var v := rs[n];
    if v.serial != "" && v.serial in Serials(init) {
      var j :| 0 <= j < |init| && init[j].serial != "" && init[j].serial == v.serial;
      assert rs[j].serial == rs[n].serial;
    }
    if v.serial != "" && !IsFirstOfSerial(rs, n) {
      var j :| 0 <= j < n && rs[j].serial == rs[n].serial;
      assert init[j].serial == v.serial;
    }
  }

  /** Deduplication loses no serial. */
  lemma {:induction false} DedupSerials(rs: seq<Variant>)
    ensures Serials(Dedup(rs)) == Serials(rs)
  {
    if rs != [] {
      var init := rs[..|rs| - 1];
      var v := rs[|rs| - 1];
      assert rs == init + [v];
      DedupSerials(init);
      SerialsSnoc(init, v);
      SerialsSnoc(Dedup(init), v);
    }
  }

  /** After deduplication every non-empty serial occurs at most once. */
  lemma DedupSerialsDistinct(rs: seq<Variant>)
    ensures SerialsDistinct(Dedup(rs))
  {
    DedupKeepsFirstOccurrences(rs);
    var d, ks := Dedup(rs), KeptPositions(rs);
    forall a, b | 0 <= a < b < |d| && d[a].serial != ""
      ensures d[a].serial != d[b].serial
    {
      assert ks[a] < ks[b];
      assert ks[b] in ks;
      assert IsFirstOfSerial(rs, ks[b]);
    }
  }

  /** Records whose serials are already distinct pass through unchanged. */
  lemma {:induction false} DedupOfDistinct(rs: seq<Variant>)
    requires SerialsDistinct(rs)
    ensures Dedup(rs) == rs
  {
    if rs != [] {
      var init := rs[..|rs| - 1];
      var v := rs[|rs| - 1];
      assert SerialsDistinct(init);
      DedupOfDistinct(init);
      assert init + [v] == rs;
    }
  }

  /** Deduplicating twice is the same as deduplicating once. */
  lemma DedupIdempotent(rs: seq<Variant>)
    ensures Dedup(Dedup(rs)) == Dedup(rs)
  {
    DedupSerialsDistinct(rs);
    DedupOfDistinct(Dedup(rs));
  }
}

=== FILE: wrappers.dfy ===
/** Failure-compatible wrappers used across the model: an optional value and
    a success-or-error outcome. */
module Wrappers {

  datatype Option<+T> = None | Some(value: T) {

    /** The wrapped value, or `default` when there is none. */
    function GetOr(default: T): T {
      match this
      case Some(v) => v
      case None => default
    }
  }

  /** An outcome: the computed value, or the reason the computation aborted. */
  datatype Result<+R, +E> = Success(value: R) | Failure(error: E)
}
